=== FILE: README.md ===
# Lending prototype: screen router, profile store and screen rules in Dafny

This project models the logic of a mobile-styled lending prototype written in
React. The app holds two pieces of state: the current screen, one of 17
identifiers, and a user profile whose fields are all optional. Each screen
gets a fixed set of callbacks that navigate, merge into the profile, or do
both. A few screens derive figures from the profile: credit utilisation, tier
progress, reward eligibility and connected data sources.

The model is purely functional:

- `Screens`: the screen identifiers, the onboarding group and the tab-bar visibility rule.
- `Profile`: `UserData` as a record of `Option` fields, and a `Patch` standing for `Partial<UserData>`. A patch key is either omitted or given, and a given key may be `undefined`, which the spread copies. It also holds the right-biased merge `Update`, the initial record, the demo record and the consent figures.
- `App`: the router as a pure `Step(state, event)`. `Step` returns `None` when the current screen wires no callback for the event. `Run` folds `Step` over a trace, and the module also holds the invariants of every reachable state.
- `DashboardScreen`, `RewardsTierScreen`, `ConnectMoreData`, `BottomNav`: the rules each of those components computes.
- `Wrappers`, `Seqs`: `Option`/`Result`, and small sequence facts (no duplicates, prefix-shaped flag rows).

The dashboard computes a utilisation percentage (src/components/Dashboard.tsx:25)
but never renders it. It is modelled all the same.

JavaScript numbers are modelled as `real`. The dashboard formulas return
`Option<real>`, where `None` stands for a value that is not finite on screen:
NaN from a missing figure, or NaN or infinity from a zero limit.

Points of the code worth stating plainly:

- Unlike credit-coach, which is given no callback at all, the rewards screen has an edge of its own besides the bar: Back to the dashboard (src/App.tsx:203).
- `skipToDemo` does not merge: it replaces the whole profile with a record of nine fields, including `coins = 250` and `level = "Gold"` (src/App.tsx:72-85).
- The connect screen's Done button exists only while some provider is connected (src/components/ConnectMoreData.tsx:105), so `Complete` is enabled there only with a non-empty list.
- The current tier on the rewards screen comes from the stored level name, not from the coin count. As a result the demo session shows Gold as current while the Gold row is locked (`DemoSessionFigures`).
- An unknown level makes the rewards screen throw, because it reads `tiers[-1].color`. `RenderHeader` returns `Err(UnknownTier)` for this case instead of requiring a known name. `ReachableRewardsScreenRenders` proves the error cannot happen in any reachable state.

## Model

| member | source | states |
|---|---|---|
| Screens.AllScreensEnumerates | src/App.tsx:21-38 | Every screen identifier is among the 17 listed. |
| Screens.BarVisibleOnExactlyFive | src/App.tsx:208 | Going through all 17 screens, the bar shows exactly on dashboard, settings, credit-coach, growth-insights and rewards-tier. |
| Screens.OnboardingHasNoBar | src/App.tsx:208 | No onboarding screen shows the tab bar. |
| Profile.Update | src/App.tsx:68-70 | Keys the patch carries take the patch's value, including `undefined`; every other property keeps its previous value. |
| Profile.UpdateEmptyIsIdentity | src/App.tsx:68-70 | `update({})` carries no keys and leaves any profile unchanged. |
| Profile.DisjointUpdatesCommute | src/App.tsx:68-70 | Two updates with disjoint key sets give the same profile in either order. |
| Profile.UpdateIdempotent | src/App.tsx:68-70 | Applying the same update twice equals applying it once. |
| Profile.UpdatesCompose | src/App.tsx:68-70 | Two successive merges equal one merge with the combined patch, in which later keys win. |
| Profile.ThenKeys | src/App.tsx:68-70 | The combined patch carries exactly the union of both key sets. |
| Profile.CoinsThenLevel | src/App.tsx:68-70 | `{coins: 5}` then `{level: "Gold"}` sets both, keeps every other property, and commutes. |
| Profile.InitialHoldsCoinsAndLevel | src/App.tsx:57-61 | The starting profile holds only coins = 250 and level = "Bronze". |
| Profile.DemoHoldsNineFields | src/App.tsx:72-85 | The demo record sets every property except the four loan ones, with level "Gold" and 250 coins. |
| Profile.ConsentWritesCreditFigures | src/App.tsx:113-120 | The consent merge carries exactly the three credit keys. It sets 1000000 / 850000 / 762 and keeps every other property. |
| BottomNav.ItemScreensDistinct | src/components/BottomNav.tsx:10-16 | The bar has five items naming five different screens. |
| BottomNav.ItemsAreTabScreens | src/components/BottomNav.tsx:10-16 | A screen is named by some bar item iff the router shows the bar on it. |
| BottomNav.OnClick | src/components/BottomNav.tsx:28 | A click yields that item's screen, which shows the bar, and no other item names that screen. |
| BottomNav.ActiveIndex | src/components/BottomNav.tsx:21-22 | At most one item is highlighted. One is highlighted exactly when the current screen shows the bar, and it names the current screen. |
| RewardsTierScreen.TierTableShape | src/components/RewardsTier.tsx:12-17 | Four tiers with strictly rising thresholds and distinct names. |
| RewardsTierScreen.IndexOf | src/components/RewardsTier.tsx:27 | `findIndex`: returns the first position holding the name, or -1 iff no entry has it. |
| RewardsTierScreen.CurrentTierIndex | src/components/RewardsTier.tsx:27 | The current index is -1 iff the level is not a tier name; otherwise it is the tier of that name. |
| RewardsTierScreen.NextTier | src/components/RewardsTier.tsx:28 | There is no next tier exactly at the top index; otherwise it is a table entry. An unknown level (index -1) yields Bronze. |
| RewardsTierScreen.CoinsToNext | src/components/RewardsTier.tsx:29 | With a next tier, the coins plus the gap reach exactly its threshold; at the top tier the gap is 0. |
| RewardsTierScreen.NextTierIsNextThreshold | src/components/RewardsTier.tsx:28 | The next tier is the one with the smallest threshold above the current tier's; only the top tier has none. |
| RewardsTierScreen.GapMeansLocked | src/components/RewardsTier.tsx:29 | The unclamped gap is positive iff the next tier is still locked, and 0 when there is no next tier. |
| RewardsTierScreen.TierRows | src/components/RewardsTier.tsx:69-72 | Row i is unlocked iff coins reach tier i's threshold, and current iff its name is the level. |
| RewardsTierScreen.UnlockedFormPrefix | src/components/RewardsTier.tsx:71 | The unlocked rows are exactly the first n rows for some n. |
| RewardsTierScreen.ExactlyOneCurrent | src/components/RewardsTier.tsx:72 | With a known level exactly one row is current, the one found by index. With an unknown level none is. |
| RewardsTierScreen.RenderHeader | src/components/RewardsTier.tsx:27-61 | Fails iff the level is unknown. Otherwise it shows the coins and level, and shows progress unless the level is Platinum. The progress is the following tier's name and its threshold minus the coins. |
| RewardsTierScreen.Card | src/components/RewardsTier.tsx:109-141 | A card is enabled iff coins cover the cost. Otherwise its label shows a strictly positive shortfall that tops the coins up to the cost. |
| RewardsTierScreen.Cards | src/components/RewardsTier.tsx:108-109 | One card per catalogue reward, in catalogue order. |
| RewardsTierScreen.DefaultSessionFigures | src/components/RewardsTier.tsx:19-29 | At Bronze/250 only Bronze is unlocked and Silver is 250 away. The first three rewards are redeemable; the others are short by 250 and 750. |
| RewardsTierScreen.DemoSessionFigures | src/components/RewardsTier.tsx:27-29 | At Gold/250 the next tier is Platinum, 1750 away. The Gold row is current but locked. |
| RewardsTierScreen.GapCanBeNegative | src/components/RewardsTier.tsx:29 | Bronze with 600 coins shows a gap of -100, because the gap is not clamped. |
| DashboardScreen.Utilization | src/components/Dashboard.tsx:25 | Defined iff both figures are present and the limit is non-zero. Utilisation times the limit equals the drawn amount times 100. |
| DashboardScreen.AvailableShare | src/components/Dashboard.tsx:144 | Defined exactly when utilisation is. The share times the limit equals the available amount times 100. |
| DashboardScreen.Round | src/components/Dashboard.tsx:144 | `Math.round`: the result lies in (x - 0.5, x + 0.5]. |
| DashboardScreen.AvailablePercent | src/components/Dashboard.tsx:144 | The ring label is defined exactly when the available share is, and is the integer nearest to it, halves rounded up. |
| DashboardScreen.UtilizationComplementsShare | src/components/Dashboard.tsx:25 | Utilisation plus the available share is 100. |
| DashboardScreen.FiguresWithinBounds | src/components/Dashboard.tsx:144 | If 0 <= available <= limit and limit > 0, utilisation and the printed percentage both lie in [0, 100]. |
| DashboardScreen.DemoFigures | src/components/Dashboard.tsx:25 | With figures 1000000 and 850000, utilisation is 15, the share 85 and the printed label 85. |
| DashboardScreen.Journey | src/components/Dashboard.tsx:64-69 | Four flags, one per tier; tier i is lit iff a score is stored and reaches 650 / 700 / 750 / 800 (a missing score compares false). |
| DashboardScreen.JourneyIsPrefix | src/components/Dashboard.tsx:64-69 | The lit journey tiers form a prefix of Bronze, Silver, Gold, Platinum. |
| DashboardScreen.JourneyDependsOnlyOnScore | src/components/Dashboard.tsx:64-69 | Profiles with equal scores light the same tiers, whatever their level or coins. |
| DashboardScreen.JourneyAt762 | src/components/Dashboard.tsx:64-69 | Score 762 lights Bronze, Silver and Gold, not Platinum: three tiers. |
| DashboardScreen.CoinsShown | src/components/Dashboard.tsx:57 | The badge shows the stored coins, or 0 when there are none. |
| DashboardScreen.NameShown | src/components/Dashboard.tsx:34 | The greeting is never empty: a non-empty stored name is shown as is; a missing or empty one shows "Business". |
| DashboardScreen.NameShownIsStable | src/components/Dashboard.tsx:34 | Storing the greeting's name back into the profile leaves the greeting unchanged. |
| DashboardScreen.Target | src/components/Dashboard.tsx:37-237 | Each of the seven buttons (lines 38, 44, 150, 192 and the three quick actions at 228-230) opens a fixed screen of the set. Every dashboard button opens a screen in {gamification, settings, loan-application, connect-data, repayment, analytics}. None of these is an onboarding screen. |
| DashboardScreen.EveryTargetHasAButton | src/components/Dashboard.tsx:36-237 | Each screen of that set is opened by some button. |
| ConnectMoreData.HandleConnect | src/components/ConnectMoreData.tsx:38-42 | The list gains exactly the id. It grows by one only if the id is new. Old entries stay in order as a prefix, and no duplicate appears. |
| ConnectMoreData.ConnectIdempotent | src/components/ConnectMoreData.tsx:38-42 | Connecting the same id twice equals connecting it once. |
| ConnectMoreData.ConnectedStaysConnected | src/components/ConnectMoreData.tsx:61 | A connected provider stays connected after any further connect. |
| ConnectMoreData.DoneButton | src/components/ConnectMoreData.tsx:105-111 | The Done button shows iff some provider is connected, and its count is the list length. |
| ConnectMoreData.DoneShownAfterConnect | src/components/ConnectMoreData.tsx:105 | After any connect the Done button shows. |
| ConnectMoreData.ClicksKeepListWellFormed | src/components/ConnectMoreData.tsx:38-42 | Any series of provider clicks keeps the list duplicate-free, made of provider ids, at most 3 long and extended only at the end. |
| ConnectMoreData.AtMostThree | src/components/ConnectMoreData.tsx:14-36 | A duplicate-free list of provider ids has length at most 3. |
| App.Navigate | src/App.tsx:63-66 | Moves to the given screen and keeps the profile; staying put changes nothing; leaving the screen drops the connect list. |
| App.Wiring | src/App.tsx:91-213 | A bar click is bound exactly on the five bar screens, to the item's screen. A merge is accepted exactly on the four screens handed `updateUserData`. |
| App.Perform | src/App.tsx:63-213 | A move ends on its target; merges and connect clicks stay put. Navigation, Done and a connect click keep the profile. Only a connect click or Done can be unavailable, and Done is available iff a provider is connected. |
| App.ConnectOn | src/components/ConnectMoreData.tsx:83-96 | A provider's Connect click is possible iff the index names a provider that is not yet connected, and then it appends that provider to the list and changes nothing else. |
| App.WiringFollowsTable | src/App.tsx:91-213 | Each screen's callbacks are bound as App.tsx binds them: local events stay put, moves follow listed edges, the consent merge only on consent's Next, the demo replacement only on welcome's Skip, Done only on the connect screen's Complete, plain moves out of onboarding stay inside it. |
| App.WiredCallbackIsListed | src/App.tsx:91-205 | Every callback a screen is given (other than the bar, merges and connect clicks) is a labelled edge (event, target) of the per-screen table, e.g. welcome has only Next→otp and Skip→dashboard, success only Next→dashboard. |
| App.ListedCallbackIsWired | src/App.tsx:91-205 | Every labelled edge of the table is wired: its event moves to its target, e.g. loan-offer's Accept→success and Back→credit-summary. |
| App.DashboardCallbackIsWired | src/components/Dashboard.tsx:37-237 | Each dashboard button navigates to the screen the table names for it: award and rewards-and-levels→gamification, settings icon→settings, working capital→loan-application, connect more→connect-data, repayment→repayment, analytics→analytics. |
| App.CallbackTargetsAreLabelled | src/App.tsx:91-205 | A screen's target set is exactly the set of targets of its labelled edges. |
| App.Step | src/App.tsx:91-213 | A local event stays on the screen; any other enabled event moves along an edge of the screen's listed targets. |
| App.EveryTargetIsWired | src/App.tsx:91-213 | Every listed target of a screen is reached by some enabled non-local event. |
| App.NoEdgeBackIntoOnboarding | src/App.tsx:91-213 | No edge leads from a non-onboarding screen into welcome, otp, business-details or aa-consent. |
| App.StepProfileEffect | src/App.tsx:63-70 | Navigation leaves the profile unchanged. Only a child merge, skip and the consent Next write it, each as stated. |
| App.SkipReplacesProfile | src/App.tsx:72-85 | Skip from welcome lands on dashboard with the nine-field demo record, whatever the profile was, with no loan field. |
| App.ConsentNextFillsCredit | src/App.tsx:113-120 | The consent Next lands on dashboard with the three credit figures set and every other property kept. |
| App.RewardsScreenIsDisplayOnly | src/components/RewardsTier.tsx:133-142 | No step from the rewards screen changes the profile, so coins never change on redeem. |
| App.ConnectScreenKeepsProfile | src/App.tsx:130-135 | No step from the connect screen writes the profile. Back and Done both lead to dashboard and drop the list. Done is only pressed with a non-empty list. |
| App.DoneNeedsAConnection | src/components/ConnectMoreData.tsx:105-111 | On the connect screen, Complete is enabled iff the Done button is shown, and then it lands on the dashboard with the profile kept and the list dropped. |
| App.TabClickNavigates | src/components/BottomNav.tsx:28 | Where the bar shows, a click on item i moves to item i's screen (possibly the current one) and keeps the profile. |
| App.RunAppend | src/App.tsx:91-213 | A run ends in the state that the last event's step produces from the state before it. |
| App.OnboardingNeverReentered | src/App.tsx:91-205 | Once a run is outside onboarding, it never re-enters it. |
| App.StepKeepsInv | src/App.tsx:91-205 | Each step, with child merges under the stated assumption, preserves the invariant. |
| App.ChildMergeKeepsGuarded | src/App.tsx:68-70 | A child patch that omits the level and the credit figures leaves those four properties as they were. |
| App.PerformKeepsListInv | src/components/ConnectMoreData.tsx:38-42 | Every effect keeps the connect list empty off its screen and well formed, with no assumption on the profile. |
| App.StepKeepsListInv | src/App.tsx:91-213 | Every step keeps the list invariant. |
| App.RunKeepsListInv | src/App.tsx:91-213 | Every run keeps the list invariant, whatever the child screens merge. |
| App.PerformKeepsInv | src/App.tsx:63-120 | Navigation, the consent merge, the demo replacement, Done, a child merge and a connect click each preserve the invariant when applied where the wiring applies them. |
| App.RunKeepsInv | src/App.tsx:91-205 | Every run under the assumption preserves the invariant. |
| App.ReachableInvariant | src/App.tsx:57-120 | In every reachable state the level is Bronze or Gold. The credit figures are absent in onboarding and fixed at 1000000 / 850000 / 762 afterwards. The connect list is well formed. |
| App.ReachableDashboardFigures | src/components/Dashboard.tsx:25-144 | Outside onboarding, utilisation is 15, the ring prints 85, the journey lights three tiers and the coach score is 762. |
| App.ReachableConnectListBounded | src/components/ConnectMoreData.tsx:38-42 | In every reachable state, with no assumption on child merges, the connect list has no duplicates and at most 3 entries. |
| App.ReachableRewardsScreenRenders | src/components/RewardsTier.tsx:52 | In every reachable state the rewards header renders without the unknown-tier failure. |
| App.ShownTier | src/App.tsx:201 | The tier name passed on is never empty: a non-empty level as is; a missing or empty one becomes "Bronze". |
| App.ShownCoins | src/App.tsx:202 | The coins passed on are never 0: a stored non-zero value as is; missing or 0 becomes 250. |
| App.CoachScore | src/App.tsx:191 | The coach score is never 0: a stored non-zero score as is; missing or 0 becomes 762. |
| App.FallbacksAreStable | src/App.tsx:191-202 | Storing the shown tier, coins or score back into the profile leaves what is shown unchanged. |
| App.ReachableFallbacksUnused | src/App.tsx:191-202 | In every reachable state (under the child-merge assumption) a level is stored and shown as is, and outside onboarding the coach shows the stored score. |
| App.InitialState | src/App.tsx:57-61 | The session starts on welcome with only coins 250 and level Bronze set, and satisfies the invariant. |
| App.OnboardingRun | src/App.tsx:91-120 | Four Next presses reach the dashboard with the consent figures merged, keeping coins 250 and level Bronze. |
| App.OpenConnectStep | src/components/Dashboard.tsx:191-197 | The Connect More Data button opens the connect screen with an empty list and the profile kept. |
| App.ConnectFirstStep | src/components/ConnectMoreData.tsx:38-42 | On an empty list, connecting the first provider records "amazon". |
| App.DoneStep | src/components/ConnectMoreData.tsx:105-111 | With a non-empty list, Done returns to the dashboard, keeps the profile and drops the list. |
| App.ConnectThenDoneRun | src/App.tsx:130-135 | From the dashboard with any profile, opening the connect screen, connecting a provider and pressing Done returns to the dashboard with the profile unchanged. |
| App.SkipConnectDoneRun | src/App.tsx:72-135 | Skip, then that connect round trip, ends on the dashboard with the demo record. |
| App.SkipRun | src/App.tsx:91-96 | Skip on the welcome screen reaches the dashboard with the demo record. |

## Left out

- Rendering, styling, icons, animation delays and `motion` effects: presentation only.
- `window.scrollTo(0, 0)` in `navigateToScreen`: a browser side effect, modelled as nothing.
- Floating point: numbers are reals, so utilisation is exactly 15 rather than the nearest double. NaN and the infinities are collapsed into `None`.
- The lakh formatting with `toFixed`, the SVG ring lengths built from `Math.PI`, and the coach ring `creditScore / 900 * 351.86`: display arithmetic on floats.
- CreditCoach and GrowthInsights content tables. Their only behaviour is the apply-limit-increase callback, which is the growth-insights edge of `App.Step`, and the coach score fallback, which is `App.CoachScore`.
- WelcomeScreen, OTPScreen, BusinessDetails, AAConsent, LoanApplication, CreditSummary, LoanOffer, SuccessScreen, Repayment, Analytics, Gamification and Settings are not part of this model. A screen that receives `updateUserData` may call it with any patch (event `Merge`). The invariant lemmas assume such patches never carry the credit figures or the level (`App.ChildPatchOk`).
- `App.ReachableInvariant`: holds only under the assumption just stated about the unseen child screens' merges.
- The hard-coded health tiles, the "67%" data strength and the "4 of 6 sources" text on the dashboard: constants with no logic.
- React batching and re-render timing. Skip and the consent Next are single atomic steps.
- Render guards are modelled as enabledness, not as rendering. A provider's Connect button exists only while that provider is not connected, so `App.Step` enables `Connect` only then; `handleConnect`'s own duplicate guard is kept in `ConnectMoreData.HandleConnect`. The Done button exists only with a non-empty list, so `App.Step` enables `Complete` on the connect screen only then.

=== FILE: app.dfy ===
/** The router: the current screen, the shared profile, and the callbacks
    each screen is given, as a pure step function over events. Also the
    props the router derives from the profile for the coach and rewards
    screens, and facts about every state a session can reach. */
module App {
  import opened Wrappers
  import opened Seqs
  import opened Screens
  import opened Profile
  import BottomNav
  import DashboardScreen
  import RewardsTierScreen
  import ConnectMoreData

  /** What the router holds, plus the connect screen's own list, which lives
      only while that screen is mounted. */
  datatype State = State(screen: Screen, profile: UserData, connected: seq<string>)

  const Init: State := State(Welcome, Initial, ConnectMoreData.InitialConnected)

  /** A user action, delivered to whichever callback the current screen wired. */
  datatype Event =
    | Next
    | Back
    | Skip
    | Complete
    | Accept
    | ApplyLimitIncrease
    | Open(action: DashboardScreen.Action)  // a dashboard button
    | Tab(item: int)                        // a bottom-bar item, by position
    | Merge(patch: Patch)                   // a child screen calling updateUserData
    | Connect(provider: int)                // a provider's Connect button, by position

  /** Events that act on the current screen without leaving it. */
  predicate Local(e: Event) {
    e.Merge? || e.Connect?
  }

  /** `navigateToScreen(t)`: moves to `t` with no check at all. Scrolling the
      window is not modelled. A screen that is left unmounts, which drops the
      connect screen's list. */
  function Navigate(st: State, t: Screen): (r: State)
    ensures r.screen == t && r.profile == st.profile
    ensures t == st.screen ==> r == st
    ensures t != st.screen ==> r.connected == []
  {
    State(t, st.profile, if t == st.screen then st.connected else [])
  }

  /** `updateUserData(p)` on the router's profile. */
  function MergeInto(st: State, p: Patch): State {
    st.(profile := Update(st.profile, p))
  }

  /** A provider's Connect button, rendered only while it is not connected.
      A click appends that provider to the list and changes nothing else. */
  function ConnectOn(st: State, i: int): (r: Option<State>)
    ensures r.Some? <==>
      (0 <= i < |ConnectMoreData.Providers| && !ConnectMoreData.IsConnected(st.connected, ConnectMoreData.Providers[i]))
    ensures r.Some? ==> r.value == st.(connected := st.connected + [ConnectMoreData.Providers[i]])
  {
    if 0 <= i < |ConnectMoreData.Providers|
       && !ConnectMoreData.IsConnected(st.connected, ConnectMoreData.Providers[i])
    then Some(st.(connected := ConnectMoreData.HandleConnect(st.connected, ConnectMoreData.Providers[i])))
    else None
  }

  /** What a wired callback does, in terms of the router's own operations. */
  datatype Effect =
    | Go(target: Screen)              // navigateToScreen(target)
    | ConsentThenGo(target: Screen)   // updateUserData(consent figures), then navigate
    | DemoThenGo(target: Screen)      // skipToDemo: replace the profile, then navigate
    | DoneThenGo(target: Screen)      // the connect screen's Done, rendered only with a connection
    | MergeHere(patch: Patch)         // a child screen's updateUserData
    | ConnectHere(provider: int)      // the connect screen's handleConnect

  predicate Moves(eff: Effect) {
    eff.Go? || eff.ConsentThenGo? || eff.DemoThenGo? || eff.DoneThenGo?
  }

  /** The callback each screen binds to each event, plus the bottom bar on
      the screens that show it. `None` means the screen offers no such callback.
      A bar click is wired exactly on the five bar screens, to the item's own
      screen; only the four screens handed `updateUserData` accept a merge. */
  function Wiring(s: Screen, e: Event): (r: Option<Effect>)
    ensures e.Tab? ==> (r.Some? <==> BarVisible(s) && 0 <= e.item < |BottomNav.Items|)
    ensures e.Tab? && r.Some? ==> r.value == Go(BottomNav.Items[e.item].screen)
    ensures e.Merge? ==> (r.Some? <==> s in {Otp, BusinessDetails, LoanApplication, LoanOffer})
  {
    if e.Tab? then
      if BarVisible(s) && 0 <= e.item < |BottomNav.Items|
      then Some(Go(BottomNav.OnClick(e.item)))
      else None
    else
      match s
      case Welcome =>
        (match e
         case Next => Some(Go(Otp))
         case Skip => Some(DemoThenGo(Dashboard))
         case _ => None)
      case Otp =>
        (match e
         case Next => Some(Go(BusinessDetails))
         case Back => Some(Go(Welcome))
         case Merge(p) => Some(MergeHere(p))
         case _ => None)
      case BusinessDetails =>
        (match e
         case Next => Some(Go(AaConsent))
         case Back => Some(Go(Otp))
         case Merge(p) => Some(MergeHere(p))
         case _ => None)
      case AaConsent =>
        (match e
         case Next => Some(ConsentThenGo(Dashboard))
         case Back => Some(Go(BusinessDetails))
         case _ => None)
      case Dashboard =>
        (match e
         case Open(a) => Some(Go(DashboardScreen.Target(a)))
         case _ => None)
      case ConnectData =>
        (match e
         case Back => Some(Go(Dashboard))
         case Complete => Some(DoneThenGo(Dashboard))
         case Connect(i) => Some(ConnectHere(i))
         case _ => None)
      case LoanApplication =>
        (match e
         case Next => Some(Go(CreditSummary))
         case Back => Some(Go(Dashboard))
         case Merge(p) => Some(MergeHere(p))
         case _ => None)
      case CreditSummary =>
        (match e
         case Next => Some(Go(LoanOffer))
         case Back => Some(Go(LoanApplication))
         case _ => None)
      case LoanOffer =>
        (match e
         case Accept => Some(Go(Success))
         case Back => Some(Go(CreditSummary))
         case Merge(p) => Some(MergeHere(p))
         case _ => None)
      case Success =>
        (match e
         case Next => Some(Go(Dashboard))
         case _ => None)
      case Repayment =>
        (match e
         case Back => Some(Go(Dashboard))
         case _ => None)
      case Analytics =>
        (match e
         case Back => Some(Go(Dashboard))
         case _ => None)
      case Gamification =>
        (match e
         case Back => Some(Go(Dashboard))
         case _ => None)
      case Settings =>
        (match e
         case Back => Some(Go(Dashboard))
         case _ => None)
      case CreditCoach => None
      case GrowthInsights =>
        (match e
         case ApplyLimitIncrease => Some(Go(LoanApplication))
         case _ => None)
      case RewardsTier =>
        (match e
         case Back => Some(Go(Dashboard))
         case _ => None)
  }

  /** Carries out an effect on the state. A move ends on its target and any
      other effect on the same screen; plain navigation, Done and a connect
      click never write the profile. Only a connect click or Done can be
      unavailable, the first for a provider already connected, the second
      while nothing is connected. */
  function Perform(st: State, eff: Effect): (r: Option<State>)
    ensures r.Some? && Moves(eff) ==> r.value.screen == eff.target
    ensures r.Some? && !Moves(eff) ==> r.value.screen == st.screen
    ensures r.Some? && (eff.Go? || eff.DoneThenGo? || eff.ConnectHere?) ==> r.value.profile == st.profile
    ensures r.None? ==> eff.ConnectHere? || eff.DoneThenGo?
    ensures eff.DoneThenGo? ==> (r.Some? <==> |st.connected| > 0)
  {
    match eff
    case Go(t) => Some(Navigate(st, t))
    case ConsentThenGo(t) => Some(Navigate(MergeInto(st, ConsentPatch), t))
    case DemoThenGo(t) => Some(Navigate(st.(profile := Demo), t))
    case DoneThenGo(t) =>
      if ConnectMoreData.DoneButton(st.connected).Some? then Some(Navigate(st, t)) else None
    case MergeHere(p) => Some(MergeInto(st, p))
    case ConnectHere(i) => ConnectOn(st, i)
  }

  /** One user action: the current screen's callback for it, carried out.
      Every step follows the table: a local event stays on the screen, any
      other event moves along one of the screen's listed edges. */
  function Step(st: State, e: Event): (r: Option<State>)
    ensures r.Some? && Local(e) ==> r.value.screen == st.screen
    ensures r.Some? && !Local(e) ==> r.value.screen in Targets(st.screen)
  {
    match Wiring(st.screen, e)
    case None => None
    case Some(eff) =>
      WiringFollowsTable(st.screen, e);
      Perform(st, eff)
  }

  /** The screens each screen's own callbacks lead to, as a table. */
  function CallbackTargets(s: Screen): set<Screen> {
    match s
    case Welcome => {Otp, Dashboard}
    case Otp => {BusinessDetails, Welcome}
    case BusinessDetails => {AaConsent, Otp}
    case AaConsent => {Dashboard, BusinessDetails}
    case Dashboard => {Gamification, Settings, LoanApplication, ConnectData, Repayment, Analytics}
    case ConnectData => {Dashboard}
    case LoanApplication => {CreditSummary, Dashboard}
    case CreditSummary => {LoanOffer, LoanApplication}
    case LoanOffer => {Success, CreditSummary}
    case Success => {Dashboard}
    case Repayment => {Dashboard}
    case Analytics => {Dashboard}
    case Gamification => {Dashboard}
    case Settings => {Dashboard}
    case CreditCoach => {}
    case GrowthInsights => {LoanApplication}
    case RewardsTier => {Dashboard}
  }

  /** Each screen's own callbacks as labelled edges: the event a callback
      answers and the screen it leads to, one pair per prop App.tsx passes
      (and, for the dashboard, one per button). */
  function Callbacks(s: Screen): set<(Event, Screen)> {
    match s
    case Welcome => {(Next, Otp), (Skip, Dashboard)}
    case Otp => {(Next, BusinessDetails), (Back, Welcome)}
    case BusinessDetails => {(Next, AaConsent), (Back, Otp)}
    case AaConsent => {(Next, Dashboard), (Back, BusinessDetails)}
    case Dashboard => {
      (Open(DashboardScreen.AwardButton), Gamification),
      (Open(DashboardScreen.SettingsButton), Settings),
      (Open(DashboardScreen.GetWorkingCapital), LoanApplication),
      (Open(DashboardScreen.ConnectMore), ConnectData),
      (Open(DashboardScreen.RepaymentSchedule), Repayment),
      (Open(DashboardScreen.BusinessAnalytics), Analytics),
      (Open(DashboardScreen.RewardsAndLevels), Gamification)}
    case ConnectData => {(Back, Dashboard), (Complete, Dashboard)}
    case LoanApplication => {(Next, CreditSummary), (Back, Dashboard)}
    case CreditSummary => {(Next, LoanOffer), (Back, LoanApplication)}
    case LoanOffer => {(Accept, Success), (Back, CreditSummary)}
    case Success => {(Next, Dashboard)}
    case Repayment => {(Back, Dashboard)}
    case Analytics => {(Back, Dashboard)}
    case Gamification => {(Back, Dashboard)}
    case Settings => {(Back, Dashboard)}
    case CreditCoach => {}
    case GrowthInsights => {(ApplyLimitIncrease, LoanApplication)}
    case RewardsTier => {(Back, Dashboard)}
  }

  /** A callback the wiring binds (other than the bar, merges and connect
      clicks) is a labelled edge of the table, with the same target. */
  lemma WiredCallbackIsListed(s: Screen, e: Event)
    requires Wiring(s, e).Some? && !e.Tab? && !Local(e)
    ensures Moves(Wiring(s, e).value)
    ensures (e, Wiring(s, e).value.target) in Callbacks(s)
  {
  }

  /** Conversely, every labelled edge is bound by the wiring, to its target. */
  lemma ListedCallbackIsWired(s: Screen, e: Event, t: Screen)
    requires (e, t) in Callbacks(s)
    ensures Wiring(s, e).Some? && Moves(Wiring(s, e).value)
    ensures Wiring(s, e).value.target == t
  {
    if s == Dashboard {
      DashboardCallbackIsWired(e, t);
    } else {
      OtherCallbackIsWired(s, e, t);
    }
  }

  /** Each dashboard button is wired to the screen the table gives it. */
  lemma DashboardCallbackIsWired(e: Event, t: Screen)
    requires (e, t) in Callbacks(Dashboard)
    ensures Wiring(Dashboard, e) == Some(Go(t))
  {
  }

  lemma OtherCallbackIsWired(s: Screen, e: Event, t: Screen)
    requires s != Dashboard && (e, t) in Callbacks(s)
    ensures Wiring(s, e).Some? && Moves(Wiring(s, e).value)
    ensures Wiring(s, e).value.target == t
  {
  }

  /** The target table is the set of the labelled edges' targets. */
  lemma CallbackTargetsAreLabelled(s: Screen, t: Screen)
    ensures t in CallbackTargets(s) <==> exists e :: (e, t) in Callbacks(s)
  {
    if t in CallbackTargets(s) {
      var e := CallbackEvent(s, t);
      WiredCallbackIsListed(s, e);
    }
  }

  /** The screens reachable in one move: the callbacks plus, where the bar
      is shown, its five items. */
  function Targets(s: Screen): set<Screen> {
    CallbackTargets(s) + (if BarVisible(s) then TabScreens else {})
  }

  /** The wiring agrees with the table: a local event is bound to an effect
      that stays put, any other event to a move along a listed edge; the
      consent merge and the demo replacement are bound only where App.tsx
      binds them. */
  lemma WiringFollowsTable(s: Screen, e: Event)
    requires Wiring(s, e).Some?
    ensures Local(e) <==> !Moves(Wiring(s, e).value)
    ensures Moves(Wiring(s, e).value) ==> Wiring(s, e).value.target in Targets(s)
    ensures Wiring(s, e).value.Go? && Onboarding(s) ==> Onboarding(Wiring(s, e).value.target)
    ensures Wiring(s, e).value.ConsentThenGo? ==> s == AaConsent && e.Next?
    ensures Wiring(s, e).value.DemoThenGo? ==> s == Welcome && e.Skip?
    ensures Wiring(s, e).value.DoneThenGo? ==> s == ConnectData && e.Complete?
    ensures Wiring(s, e).value.MergeHere? ==> e == Merge(Wiring(s, e).value.patch)
    ensures Wiring(s, e).value.ConnectHere? ==> s == ConnectData && e == Connect(Wiring(s, e).value.provider)
  {
  }

  /** Conversely, every listed edge is wired to some non-local event. */
  lemma EveryTargetIsWired(st: State, t: Screen)
    requires t in Targets(st.screen)
    ensures exists e :: !Local(e) && Step(st, e).Some? && Step(st, e).value.screen == t
  {
    var e := WiredEvent(st.screen, t);
    var eff := Wiring(st.screen, e).value;
    assert Perform(st, eff).Some?;
    assert Step(st, e) == Perform(st, eff);
  }

  /** An event bound to the edge from `s` to `t`. */
  function WiredEvent(s: Screen, t: Screen): (e: Event)
    requires t in Targets(s)
    ensures !Local(e)
    ensures Wiring(s, e).Some? && Moves(Wiring(s, e).value) && Wiring(s, e).value.target == t
    ensures !Wiring(s, e).value.DoneThenGo?
  {
    if t in CallbackTargets(s) then CallbackEvent(s, t) else TabEvent(t)
  }

  function CallbackEvent(s: Screen, t: Screen): (e: Event)
    requires t in CallbackTargets(s)
    ensures !Local(e)
    ensures Wiring(s, e).Some? && Moves(Wiring(s, e).value) && Wiring(s, e).value.target == t
    ensures !Wiring(s, e).value.DoneThenGo?
  {
    match s
    case Welcome => if t == Otp then Next else Skip
    case Otp => if t == BusinessDetails then Next else Back
    case BusinessDetails => if t == AaConsent then Next else Back
    case AaConsent => if t == Dashboard then Next else Back
    case Dashboard =>
      Open(
        if t == Gamification then DashboardScreen.AwardButton
        else if t == Settings then DashboardScreen.SettingsButton
        else if t == LoanApplication then DashboardScreen.GetWorkingCapital
        else if t == ConnectData then DashboardScreen.ConnectMore
        else if t == Repayment then DashboardScreen.RepaymentSchedule
        else DashboardScreen.BusinessAnalytics)
    case ConnectData => Back
    case LoanApplication => if t == CreditSummary then Next else Back
    case CreditSummary => if t == LoanOffer then Next else Back
    case LoanOffer => if t == Success then Accept else Back
    case Success => Next
    case Repayment => Back
    case Analytics => Back
    case Gamification => Back
    case Settings => Back
    case GrowthInsights => ApplyLimitIncrease
    case RewardsTier => Back
  }

  /** The bar item for a tab screen. */
  function TabEvent(t: Screen): (e: Event)
    requires t in TabScreens
    ensures e.Tab? && 0 <= e.item < |BottomNav.Items| && BottomNav.Items[e.item].screen == t
  {
    Tab(if t == Dashboard then 0 else if t == CreditCoach then 1 else if t == GrowthInsights then 2
        else if t == RewardsTier then 3 else 4)
  }

  /** No edge leaves the dashboard side of the app for an onboarding screen. */
  lemma NoEdgeBackIntoOnboarding(s: Screen, t: Screen)
    requires !Onboarding(s) && t in Targets(s)
    ensures !Onboarding(t)
  {
  }

  /** How a step changes the profile: navigation never does; only a child
      merge, the consent screen's Next and the demo skip write it. */
  lemma StepProfileEffect(st: State, e: Event)
    requires Step(st, e).Some?
    ensures e.Merge? ==> Step(st, e).value.profile == Update(st.profile, e.patch)
    ensures e.Skip? ==> Step(st, e).value.profile == Demo
    ensures e.Next? && st.screen == AaConsent ==> Step(st, e).value.profile == Update(st.profile, ConsentPatch)
    ensures !e.Merge? && !e.Skip? && !(e.Next? && st.screen == AaConsent) ==> Step(st, e).value.profile == st.profile
  {
    WiringFollowsTable(st.screen, e);
  }

  /** Skip replaces the whole profile, whatever it held: the demo record
      with its nine fields and no loan field, and lands on the dashboard. */
  lemma SkipReplacesProfile(st: State)
    requires st.screen == Welcome
    ensures Step(st, Skip).Some?
    ensures Step(st, Skip).value.screen == Dashboard
    ensures Present(Step(st, Skip).value.profile) == AllKeys - LoanKeys
    ensures Step(st, Skip).value.profile.level == Some("Gold")
    ensures Step(st, Skip).value.profile.coins == Some(250.0)
    ensures forall k :: k in LoanKeys ==> Get(Step(st, Skip).value.profile, k).None?
  {
    DemoHoldsNineFields();
  }

  /** The consent screen's Next writes the three credit figures, keeps every
      other property, and lands on the dashboard. */
  lemma ConsentNextFillsCredit(st: State)
    requires st.screen == AaConsent
    ensures Step(st, Next).Some?
    ensures Step(st, Next).value.screen == Dashboard
    ensures Step(st, Next).value.profile.creditLimit == Some(1000000.0)
    ensures Step(st, Next).value.profile.availableLimit == Some(850000.0)
    ensures Step(st, Next).value.profile.creditScore == Some(762.0)
    ensures forall k :: k !in CreditKeys ==> Get(Step(st, Next).value.profile, k) == Get(st.profile, k)
  {
    ConsentWritesCreditFigures(st.profile);
  }

  /** The rewards screen only offers Back and the bar; redeeming is display
      only, so no step from it changes the profile (coins included). */
  lemma RewardsScreenIsDisplayOnly(st: State, e: Event)
    requires st.screen == RewardsTier && Step(st, e).Some?
    ensures Step(st, e).value.profile == st.profile
    ensures Step(st, e).value.screen in TabScreens
  {
  }

  /** The connect screen never writes the profile; both Back and Done lead
      to the dashboard, and its list is dropped there. Done needs a
      connection. */
  lemma ConnectScreenKeepsProfile(st: State, e: Event)
    requires st.screen == ConnectData && Step(st, e).Some?
    ensures Step(st, e).value.profile == st.profile
    ensures !Local(e) ==> Step(st, e).value.screen == Dashboard && Step(st, e).value.connected == []
    ensures e.Complete? ==> |st.connected| > 0
  {
  }

  /** Done can be pressed exactly when the list holds a provider, that is
      when the Done button is on screen. */
  lemma DoneNeedsAConnection(st: State)
    requires st.screen == ConnectData
    ensures Step(st, Complete).Some? <==> ConnectMoreData.DoneButton(st.connected).Some?
    ensures Step(st, Complete).Some? ==> Step(st, Complete).value == State(Dashboard, st.profile, [])
  {
  }

  /** A bar click moves to that item's screen from any screen showing the
      bar, the item's own screen included. */
  lemma TabClickNavigates(st: State, i: int)
    requires BarVisible(st.screen) && 0 <= i < |BottomNav.Items|
    ensures Step(st, Tab(i)) == Some(Navigate(st, BottomNav.Items[i].screen))
    ensures Step(st, Tab(i)).value.profile == st.profile
  {
  }

  /** The state after a sequence of events, or `None` if some event had no
      callback on the screen it reached. */
  function Run(st: State, es: seq<Event>): Option<State>
    decreases |es|
  {
    if |es| == 0 then Some(st)
    else match Step(st, es[0])
      case None => None
      case Some(next) => Run(next, es[1..])
  }

  /** The run is a left fold of the step function: it ends in the state the
      last event's step produces. */
  lemma {:induction false} RunAppend(st: State, es: seq<Event>, e: Event)
    ensures Run(st, es + [e]) == match Run(st, es) case None => None case Some(mid) => Step(mid, e)
    decreases |es|
  {
    if |es| == 0 {
      assert es + [e] == [e];
    } else {
      assert (es + [e])[1..] == es[1..] + [e];
      match Step(st, es[0]) {
        case None =>
        case Some(next) => RunAppend(next, es[1..], e);
      }
    }
  }

  /** Once a run has left onboarding, it never returns there. */
  lemma {:induction false} OnboardingNeverReentered(st: State, es: seq<Event>)
    requires !Onboarding(st.screen) && Run(st, es).Some?
    ensures !Onboarding(Run(st, es).value.screen)
    decreases |es|
  {
    if |es| > 0 {
      var next := Step(st, es[0]).value;
      if !Local(es[0]) {
        NoEdgeBackIntoOnboarding(st.screen, next.screen);
      }
      OnboardingNeverReentered(next, es[1..]);
    }
  }

  /** The assumption on the child screens this model cannot see: their
      merges never write the credit figures or the level. */
  predicate ChildPatchOk(p: Patch) {
    p.creditLimit.Omitted? && p.availableLimit.Omitted? && p.creditScore.Omitted? && p.level.Omitted?
  }

  predicate Assumed(es: seq<Event>) {
    forall i :: 0 <= i < |es| && es[i].Merge? ==> ChildPatchOk(es[i].patch)
  }

  /** What holds of every reachable state. */
  predicate Inv(st: State) {
    && (st.profile.level == Some("Bronze") || st.profile.level == Some("Gold"))
    && (Onboarding(st.screen) ==>
          st.profile.creditLimit.None? && st.profile.availableLimit.None? && st.profile.creditScore.None?)
    && (!Onboarding(st.screen) ==>
          && st.profile.creditLimit == Some(1000000.0)
          && st.profile.availableLimit == Some(850000.0)
          && st.profile.creditScore == Some(762.0))
    && ListInv(st)
  }

  /** The part of the invariant about the connect screen's list: it is empty
      off that screen and always well formed. It depends on no profile field. */
  predicate ListInv(st: State) {
    && (st.screen != ConnectData ==> st.connected == [])
    && ConnectMoreData.WellFormed(st.connected)
  }

  /** Each effect keeps the list invariant, given that connect clicks only
      happen on the connect screen. */
  lemma PerformKeepsListInv(st: State, eff: Effect)
    requires ListInv(st) && Perform(st, eff).Some?
    requires eff.ConnectHere? ==> st.screen == ConnectData
    ensures ListInv(Perform(st, eff).value)
  {
    if eff.ConnectHere? {
      var id := ConnectMoreData.Providers[eff.provider];
      var r := Perform(st, eff).value.connected;
      assert r == ConnectMoreData.HandleConnect(st.connected, id);
      forall x | x in r ensures x in ConnectMoreData.Providers {
        assert ConnectMoreData.IsConnected(r, x);
      }
    }
  }

  lemma StepKeepsListInv(st: State, e: Event)
    requires ListInv(st) && Step(st, e).Some?
    ensures ListInv(Step(st, e).value)
  {
    WiringFollowsTable(st.screen, e);
    PerformKeepsListInv(st, Wiring(st.screen, e).value);
  }

  /** Every run keeps the list invariant, whatever the child screens merge. */
  lemma {:induction false} RunKeepsListInv(st: State, es: seq<Event>)
    requires ListInv(st) && Run(st, es).Some?
    ensures ListInv(Run(st, es).value)
    decreases |es|
  {
    if |es| > 0 {
      StepKeepsListInv(st, es[0]);
      RunKeepsListInv(Step(st, es[0]).value, es[1..]);
    }
  }

  /** A child merge under the assumption leaves the guarded fields alone. */
  lemma ChildMergeKeepsGuarded(u: UserData, p: Patch)
    requires ChildPatchOk(p)
    ensures Update(u, p).level == u.level
    ensures Update(u, p).creditLimit == u.creditLimit
    ensures Update(u, p).availableLimit == u.availableLimit
    ensures Update(u, p).creditScore == u.creditScore
  {
  }

  lemma StepKeepsInv(st: State, e: Event)
    requires Inv(st) && Step(st, e).Some?
    requires e.Merge? ==> ChildPatchOk(e.patch)
    ensures Inv(Step(st, e).value)
  {
    var eff := Wiring(st.screen, e).value;
    WiringFollowsTable(st.screen, e);
    if Moves(eff) && !Onboarding(st.screen) {
      NoEdgeBackIntoOnboarding(st.screen, eff.target);
    }
    PerformKeepsInv(st, eff);
  }

  /** Each effect keeps the invariant, given that a move never leaves the
      dashboard side for onboarding and that the consent merge only happens
      on its own screen. */
  lemma PerformKeepsInv(st: State, eff: Effect)
    requires Inv(st) && Perform(st, eff).Some?
    requires Moves(eff) && !Onboarding(st.screen) ==> !Onboarding(eff.target)
    requires eff.Go? && Onboarding(st.screen) ==> Onboarding(eff.target)
    requires eff.ConsentThenGo? ==> st.screen == AaConsent && eff.target == Dashboard
    requires eff.DemoThenGo? ==> eff.target == Dashboard
    requires eff.DoneThenGo? ==> st.screen == ConnectData
    requires eff.MergeHere? ==> ChildPatchOk(eff.patch)
    requires eff.ConnectHere? ==> st.screen == ConnectData
    ensures Inv(Perform(st, eff).value)
  {
    PerformKeepsListInv(st, eff);
    match eff {
      case Go(t) =>
      case ConsentThenGo(t) =>
        ConsentWritesCreditFigures(st.profile);
        assert Get(Update(st.profile, ConsentPatch), Level) == Get(st.profile, Level);
      case DemoThenGo(t) =>
      case DoneThenGo(t) =>
      case MergeHere(p) =>
        ChildMergeKeepsGuarded(st.profile, p);
      case ConnectHere(i) =>
    }
  }

  lemma {:induction false} RunKeepsInv(st: State, es: seq<Event>)
    requires Inv(st) && Assumed(es) && Run(st, es).Some?
    ensures Inv(Run(st, es).value)
    decreases |es|
  {
    if |es| > 0 {
      StepKeepsInv(st, es[0]);
      var rest := es[1..];
      assert Assumed(rest) by {
        forall i | 0 <= i < |rest| && rest[i].Merge? ensures ChildPatchOk(rest[i].patch) {
          assert rest[i] == es[i + 1];
        }
      }
      RunKeepsInv(Step(st, es[0]).value, rest);
    }
  }

  /** In every state a session reaches, the level is Bronze or Gold, the
      credit figures are absent during onboarding and equal the fixed demo
      figures afterwards, and the connect list is well formed. */
  lemma ReachableInvariant(es: seq<Event>)
    requires Assumed(es) && Run(Init, es).Some?
    ensures Inv(Run(Init, es).value)
  {
    InitialState();
    RunKeepsInv(Init, es);
  }

  /** Whenever the dashboard can be on screen the figures it divides by are
      set: utilisation is 15%, the ring prints 85%, and the journey lights
      Bronze, Silver and Gold. */
  lemma ReachableDashboardFigures(es: seq<Event>, st: State)
    requires Assumed(es) && Run(Init, es) == Some(st) && !Onboarding(st.screen)
    ensures DashboardScreen.Utilization(st.profile) == Some(15.0)
    ensures DashboardScreen.AvailablePercent(st.profile) == Some(85)
    ensures DashboardScreen.Journey(st.profile) == [true, true, true, false]
    ensures CoachScore(st.profile) == 762.0
  {
    ReachableInvariant(es);
    DashboardScreen.DemoFigures(st.profile);
    DashboardScreen.JourneyAt762(st.profile);
  }

  /** The connect list of a reachable state holds at most three providers,
      with no repeats, whatever the child screens merge into the profile. */
  lemma ReachableConnectListBounded(es: seq<Event>, st: State)
    requires Run(Init, es) == Some(st)
    ensures |st.connected| <= 3
    ensures NoDup(st.connected)
  {
    assert ListInv(Init);
    RunKeepsListInv(Init, es);
    ConnectMoreData.AtMostThree(st.connected);
  }

  /** `userData.level || 'Bronze'`: a missing or empty level reads as Bronze. */
  function ShownTier(u: UserData): (name: string)
    ensures name != ""
    ensures u.level.Some? && u.level.value != "" ==> name == u.level.value
    ensures u.level.None? || u.level.value == "" ==> name == "Bronze"
  {
    if u.level.None? || u.level.value == "" then "Bronze" else u.level.value
  }

  /** `userData.coins || 250`: a missing or zero balance reads as 250, so the
      rewards screen never shows 0 coins. */
  function ShownCoins(u: UserData): (coins: real)
    ensures coins != 0.0
    ensures u.coins.Some? && u.coins.value != 0.0 ==> coins == u.coins.value
    ensures u.coins.None? || u.coins.value == 0.0 ==> coins == 250.0
  {
    if u.coins.None? || u.coins.value == 0.0 then 250.0 else u.coins.value
  }

  /** `userData.creditScore || 762`: the coach screen's score. */
  function CoachScore(u: UserData): (score: real)
    ensures score != 0.0
    ensures u.creditScore.Some? && u.creditScore.value != 0.0 ==> score == u.creditScore.value
    ensures u.creditScore.None? || u.creditScore.value == 0.0 ==> score == 762.0
  {
    if u.creditScore.None? || u.creditScore.value == 0.0 then 762.0 else u.creditScore.value
  }

  /** Storing what is shown changes nothing that is shown: each fallback is
      itself a value that passes the `||` test. */
  lemma FallbacksAreStable(u: UserData)
    ensures ShownTier(u.(level := Some(ShownTier(u)))) == ShownTier(u)
    ensures ShownCoins(u.(coins := Some(ShownCoins(u)))) == ShownCoins(u)
    ensures CoachScore(u.(creditScore := Some(CoachScore(u)))) == CoachScore(u)
  {
  }

  /** In every state a session reaches the level and the score are stored,
      so the rewards badge shows the stored level and the coach the stored
      score; neither fallback is ever used. */
  lemma ReachableFallbacksUnused(es: seq<Event>, st: State)
    requires Assumed(es) && Run(Init, es) == Some(st)
    ensures st.profile.level.Some? && ShownTier(st.profile) == st.profile.level.value
    ensures !Onboarding(st.screen) ==>
      st.profile.creditScore.Some? && CoachScore(st.profile) == st.profile.creditScore.value
  {
    ReachableInvariant(es);
  }

  /** In every reachable state the rewards screen renders without throwing,
      since the level is always one of the four tier names. */
  lemma ReachableRewardsScreenRenders(es: seq<Event>, st: State)
    requires Assumed(es) && Run(Init, es) == Some(st)
    ensures RewardsTierScreen.RenderHeader(ShownTier(st.profile), ShownCoins(st.profile)).Ok?
  {
    ReachableInvariant(es);
    assert RewardsTierScreen.Tiers[0].name == "Bronze";
    assert RewardsTierScreen.Tiers[2].name == "Gold";
    assert RewardsTierScreen.IsTierName(ShownTier(st.profile));
  }

  /** The initial state is the welcome screen with coins 250 and level Bronze. */
  lemma InitialState()
    ensures Init.screen == Welcome
    ensures Present(Init.profile) == {Coins, Level}
    ensures Init.profile.coins == Some(250.0) && Init.profile.level == Some("Bronze")
    ensures Inv(Init)
  {
    InitialHoldsCoinsAndLevel();
  }

  /** Four Next presses lead through onboarding to the dashboard, with the
      consent figures merged into the starting profile, whose coins and
      level are kept. */
  lemma OnboardingRun()
    ensures Run(Init, [Next, Next, Next, Next]) == Some(State(Dashboard, Update(Initial, ConsentPatch), []))
    ensures Update(Initial, ConsentPatch).level == Some("Bronze")
    ensures Update(Initial, ConsentPatch).coins == Some(250.0)
  {
    var s1 := Navigate(Init, Otp);
    var s2 := Navigate(s1, BusinessDetails);
    var s3 := Navigate(s2, AaConsent);
    var s4 := State(Dashboard, Update(Initial, ConsentPatch), []);
    assert Step(s3, Next) == Some(s4);
    assert Run(s3, [Next]) == Some(s4) by {
      assert [Next][1..] == [];
    }
    assert Step(s2, Next) == Some(s3);
    assert Run(s2, [Next, Next]) == Some(s4) by {
      assert [Next, Next][1..] == [Next];
    }
    assert Step(s1, Next) == Some(s2);
    assert Run(s1, [Next, Next, Next]) == Some(s4) by {
      assert [Next, Next, Next][1..] == [Next, Next];
    }
    assert Step(Init, Next) == Some(s1);
    assert [Next, Next, Next, Next][1..] == [Next, Next, Next];
  }

  /** The dashboard's Connect More Data button opens the connect screen
      with an empty list. */
  lemma OpenConnectStep(p: UserData)
    ensures Step(State(Dashboard, p, []), Open(DashboardScreen.ConnectMore)) == Some(State(ConnectData, p, []))
  {
    assert DashboardScreen.Target(DashboardScreen.ConnectMore) == ConnectData;
  }

  /** Connecting the first provider on an empty list records it. */
  lemma ConnectFirstStep(p: UserData)
    ensures Step(State(ConnectData, p, []), Connect(0)) == Some(State(ConnectData, p, ["amazon"]))
  {
    assert ConnectMoreData.Providers[0] == "amazon";
  }

  /** Done with a non-empty list returns to the dashboard and drops the list. */
  lemma DoneStep(p: UserData, c: seq<string>)
    requires |c| > 0
    ensures Step(State(ConnectData, p, c), Complete) == Some(State(Dashboard, p, []))
  {
  }

  /** A connection can be made and confirmed: from the dashboard, open the
      connect screen, connect the first provider and press Done, which lands
      back on the dashboard with the profile untouched. */
  lemma ConnectThenDoneRun(p: UserData)
    ensures Run(State(Dashboard, p, []), [Open(DashboardScreen.ConnectMore), Connect(0), Complete])
      == Some(State(Dashboard, p, []))
  {
    var s1 := State(Dashboard, p, []);
    var s2 := State(ConnectData, p, []);
    var s3 := State(ConnectData, p, ["amazon"]);
    DoneStep(p, ["amazon"]);
    assert Run(s3, [Complete]) == Some(s1) by {
      assert [Complete][1..] == [];
    }
    ConnectFirstStep(p);
    assert Run(s2, [Connect(0), Complete]) == Some(s1) by {
      assert [Connect(0), Complete][1..] == [Complete];
    }
    OpenConnectStep(p);
    assert [Open(DashboardScreen.ConnectMore), Connect(0), Complete][1..] == [Connect(0), Complete];
  }

  /** The same round trip right after skipping to the demo. */
  lemma SkipConnectDoneRun()
    ensures Run(Init, [Skip, Open(DashboardScreen.ConnectMore), Connect(0), Complete])
      == Some(State(Dashboard, Demo, []))
  {
    SkipRun();
    ConnectThenDoneRun(Demo);
    assert [Skip, Open(DashboardScreen.ConnectMore), Connect(0), Complete][1..]
      == [Open(DashboardScreen.ConnectMore), Connect(0), Complete];
    assert Step(Init, Skip) == Some(State(Dashboard, Demo, []));
  }

  /** Skip on the welcome screen reaches the dashboard with the demo record. */
  lemma SkipRun()
    ensures Run(Init, [Skip]) == Some(State(Dashboard, Demo, []))
  {
    assert Step(Init, Skip) == Some(State(Dashboard, Demo, []));
    assert [Skip][1..] == [];
  }
}

=== FILE: bottom_nav.dfy ===
/** The fixed five-item tab bar: which item is highlighted and where a click leads. */
module BottomNav {
  import opened Screens
  import opened Seqs

  datatype Item = Item(screen: Screen, caption: string)

  const Items: seq<Item> := [
    Item(Dashboard, "Home"),
    Item(CreditCoach, "Coach"),
    Item(GrowthInsights, "Insights"),
    Item(RewardsTier, "Rewards"),
    Item(Settings, "Settings")
  ]

  /** An item is highlighted when it names the current screen. */
  predicate IsActive(current: Screen, item: Item) {
    current == item.screen
  }

  /** Clicking item `i` asks the router for exactly that item's screen,
      whatever the current screen is, the current one included. */
  function OnClick(i: int): (target: Screen)
    requires 0 <= i < |Items|
    ensures BarVisible(target)
    ensures forall j :: 0 <= j < |Items| && Items[j].screen == target ==> j == i
  {
    Items[i].screen
  }

  /** The items name five different screens. */
  lemma ItemScreensDistinct()
    ensures |Items| == 5
    ensures forall i, j :: 0 <= i < j < |Items| ==> Items[i].screen != Items[j].screen
  {
  }

  /** The items are exactly the screens on which the router shows the bar. */
  lemma ItemsAreTabScreens(s: Screen)
    ensures BarVisible(s) <==> exists i :: 0 <= i < |Items| && Items[i].screen == s
  {
    if BarVisible(s) {
      if s == Dashboard { assert Items[0].screen == s; }
      else if s == CreditCoach { assert Items[1].screen == s; }
      else if s == GrowthInsights { assert Items[2].screen == s; }
      else if s == RewardsTier { assert Items[3].screen == s; }
      else { assert Items[4].screen == s; }
    }
  }

  /** Walks the items as the bar renders them and returns the index of the
      highlighted one, or -1 when none is. At most one item is ever
      highlighted, and one is exactly when the bar is shown. */
  method ActiveIndex(current: Screen) returns (idx: int)
    ensures -1 <= idx < |Items|
    ensures idx >= 0 ==> IsActive(current, Items[idx])
    ensures forall j :: 0 <= j < |Items| && j != idx ==> !IsActive(current, Items[j])
    ensures idx >= 0 <==> BarVisible(current)
  {
    ItemScreensDistinct();
    idx := -1;
    var i := 0;
    while i < |Items|
      invariant 0 <= i <= |Items|
      invariant -1 <= idx < i
      invariant idx >= 0 ==> IsActive(current, Items[idx])
      invariant forall j :: 0 <= j < i && j != idx ==> !IsActive(current, Items[j])
    {
      if IsActive(current, Items[i]) {
        idx := i;
      }
      i := i + 1;
    }
    ItemsAreTabScreens(current);
  }
}

=== FILE: connect_more_data.dfy ===
/** The connect-more-data screen: the list of connected provider ids kept by
    the screen itself, append-if-absent connection, and the Done button. */
module ConnectMoreData {
  import opened Wrappers
  import opened Seqs

  /** The ids of the three providers offered, in display order. */
  const Providers: seq<string> := ["amazon", "razorpay", "utility"]

  /** The list is empty when the screen opens. */
  const InitialConnected: seq<string> := []

  predicate IsConnected(connected: seq<string>, id: string) {
    id in connected
  }

  /** `handleConnect(id)`: appends `id` when it is not yet in the list. The
      list gains exactly `id`, keeps its old entries in order as a prefix,
      grows by one only for a new id, and stays free of duplicates. */
  function HandleConnect(connected: seq<string>, id: string): (r: seq<string>)
    ensures forall x :: IsConnected(r, x) <==> IsConnected(connected, x) || x == id
    ensures |r| == if IsConnected(connected, id) then |connected| else |connected| + 1
    ensures r[..|connected|] == connected
    ensures NoDup(connected) ==> NoDup(r)
  {
    if id !in connected then connected + [id] else connected
  }

  /** Connecting the same id twice is the same as connecting it once. */
  lemma ConnectIdempotent(connected: seq<string>, id: string)
    ensures HandleConnect(HandleConnect(connected, id), id) == HandleConnect(connected, id)
  {
  }

  /** There is no removal: a connected provider stays connected. */
  lemma ConnectedStaysConnected(connected: seq<string>, id: string, other: string)
    requires IsConnected(connected, other)
    ensures IsConnected(HandleConnect(connected, id), other)
  {
  }

  /** The Done button: absent, or present with the number of connected sources. */
  function DoneButton(connected: seq<string>): (count: Option<nat>)
    ensures count.Some? <==> exists x :: IsConnected(connected, x)
    ensures count.Some? ==> count.value == |connected| && count.value > 0
  {
    if |connected| > 0 then
      assert IsConnected(connected, connected[0]);
      Some(|connected|)
    else None
  }

  /** After any connection the Done button is shown. */
  lemma DoneShownAfterConnect(connected: seq<string>, id: string)
    ensures DoneButton(HandleConnect(connected, id)).Some?
  {
    assert IsConnected(HandleConnect(connected, id), id);
  }

  /** The list after a series of clicks on provider buttons. */
  function Clicks(connected: seq<string>, ids: seq<string>): seq<string>
    decreases |ids|
  {
    if |ids| == 0 then connected else Clicks(HandleConnect(connected, ids[0]), ids[1..])
  }

  /** The invariant of the screen's list: no duplicates, only provider ids. */
  predicate WellFormed(connected: seq<string>) {
    NoDup(connected) && forall x :: x in connected ==> x in Providers
  }

  /** Any series of provider clicks from any well-formed list keeps the list
      well formed, never longer than three, and extends it at the end only. */
  lemma {:induction false} ClicksKeepListWellFormed(connected: seq<string>, ids: seq<string>)
    requires WellFormed(connected)
    requires forall x :: x in ids ==> x in Providers
    ensures WellFormed(Clicks(connected, ids))
    ensures |Clicks(connected, ids)| <= 3
    ensures |connected| <= |Clicks(connected, ids)|
    ensures Clicks(connected, ids)[..|connected|] == connected
    decreases |ids|
  {
    if |ids| == 0 {
      AtMostThree(connected);
    } else {
      var next := HandleConnect(connected, ids[0]);
      assert ids[0] in ids;
      assert WellFormed(next);
      forall x | x in ids[1..] ensures x in Providers {
        assert x in ids;
      }
      ClicksKeepListWellFormed(next, ids[1..]);
      var r := Clicks(next, ids[1..]);
      assert r[..|connected|] == r[..|next|][..|connected|];
    }
  }

  /** A well-formed list holds at most the three providers. */
  lemma AtMostThree(connected: seq<string>)
    requires WellFormed(connected)
    ensures |connected| <= 3
  {
    var universe := {"amazon", "razorpay", "utility"};
    forall x | x in connected ensures x in universe {
      assert x in Providers;
    }
    NoDupBoundedBy(connected, universe);
  }
}

=== FILE: dashboard.dfy ===
/** The dashboard's derived figures: credit utilisation, the available-limit
    percentage, the credit-journey strip, display fallbacks, and the screens
    its buttons open. */
module DashboardScreen {
  import opened Wrappers
  import opened Seqs
  import opened Screens
  import opened Profile

  /** `(creditLimit - availableLimit) / creditLimit * 100`. `None` stands for
      a value that is not a finite number on screen: a missing figure gives
      NaN and a zero limit gives NaN or an infinity. The source computes this
      value but does not render it. */
  function Utilization(u: UserData): (r: Option<real>)
    ensures r.Some? <==> u.creditLimit.Some? && u.availableLimit.Some? && u.creditLimit.value != 0.0
    ensures r.Some? ==> r.value * u.creditLimit.value == (u.creditLimit.value - u.availableLimit.value) * 100.0
  {
    match (u.creditLimit, u.availableLimit)
    case (Some(limit), Some(available)) =>
      if limit != 0.0 then Some((limit - available) / limit * 100.0) else None
    case _ => None
  }

  /** `availableLimit / creditLimit * 100`, before rounding. */
  function AvailableShare(u: UserData): (r: Option<real>)
    ensures r.Some? <==> Utilization(u).Some?
    ensures r.Some? ==> r.value * u.creditLimit.value == u.availableLimit.value * 100.0
  {
    match (u.creditLimit, u.availableLimit)
    case (Some(limit), Some(available)) =>
      if limit != 0.0 then Some(available / limit * 100.0) else None
    case _ => None
  }

  /** `Math.round`: the nearest integer, halves rounded up. */
  function Round(x: real): (n: int)
    ensures x - 0.5 < n as real <= x + 0.5
  {
    (x + 0.5).Floor
  }

  /** The percentage printed inside the limit ring: the available share
      rounded to the nearest integer, defined exactly when the share is. */
  function AvailablePercent(u: UserData): (r: Option<int>)
    ensures r.Some? <==> AvailableShare(u).Some?
    ensures r.Some? ==> AvailableShare(u).value - 0.5 < r.value as real <= AvailableShare(u).value + 0.5
  {
    match AvailableShare(u)
    case Some(share) => Some(Round(share))
    case None => None
  }

  /** Utilisation and the available share always add up to 100. */
  lemma UtilizationComplementsShare(u: UserData)
    requires Utilization(u).Some?
    ensures Utilization(u).value + AvailableShare(u).value == 100.0
  {
    var limit, available := u.creditLimit.value, u.availableLimit.value;
    var used, share := Utilization(u).value, AvailableShare(u).value;
    assert used * limit == (limit - available) * 100.0;
    assert share * limit == available * 100.0;
    calc {
      used * limit + share * limit;
      (limit - available) * 100.0 + share * limit;
      (limit - available) * 100.0 + available * 100.0;
      limit * 100.0;
    }
    assert (used + share - 100.0) * limit == 0.0;
  }

  /** When the available figure lies between zero and the limit, utilisation
      and the printed percentage both lie in [0, 100]. */
  lemma FiguresWithinBounds(u: UserData)
    requires u.creditLimit.Some? && u.availableLimit.Some?
    requires 0.0 < u.creditLimit.value
    requires 0.0 <= u.availableLimit.value <= u.creditLimit.value
    ensures 0.0 <= Utilization(u).value <= 100.0
    ensures 0 <= AvailablePercent(u).value <= 100
  {
    var limit, available := u.creditLimit.value, u.availableLimit.value;
    var share := AvailableShare(u).value;
    assert share * limit == available * 100.0;
    assert 0.0 <= share <= 100.0;
    UtilizationComplementsShare(u);
  }

  /** The demo figures: 15% used, 85% printed. */
  lemma DemoFigures(u: UserData)
    requires u.creditLimit == Some(1000000.0) && u.availableLimit == Some(850000.0)
    ensures Utilization(u) == Some(15.0)
    ensures AvailableShare(u) == Some(85.0)
    ensures AvailablePercent(u) == Some(85)
  {
  }

  const JourneyTiers: seq<string> := ["Bronze", "Silver", "Gold", "Platinum"]

  /** The per-tier test of the credit-journey strip, spelled as in the source.
      A missing score compares false against every threshold. */
  predicate JourneyActive(tier: string, score: Option<real>) {
    score.Some? && (
      (tier == "Bronze" && score.value >= 650.0) ||
      (tier == "Silver" && score.value >= 700.0) ||
      (tier == "Gold" && score.value >= 750.0) ||
      (tier == "Platinum" && score.value >= 800.0))
  }

  /** The score each tier of the strip needs. */
  const JourneyThresholds: seq<real> := [650.0, 700.0, 750.0, 800.0]

  /** The strip's four lit/unlit flags, in tier order: tier i is lit exactly
      when a score is stored and reaches the i-th threshold. */
  function Journey(u: UserData): (flags: seq<bool>)
    ensures |flags| == |JourneyTiers|
    ensures forall i :: 0 <= i < |JourneyTiers| ==>
      (flags[i] <==> u.creditScore.Some? && u.creditScore.value >= JourneyThresholds[i])
  {
    seq(|JourneyTiers|, i requires 0 <= i < |JourneyTiers| => JourneyActive(JourneyTiers[i], u.creditScore))
  }

  /** The lit tiers always form a prefix of Bronze, Silver, Gold, Platinum. */
  lemma {:induction false} JourneyIsPrefix(u: UserData)
    ensures DownwardClosed(Journey(u))
  {
    var flags := Journey(u);
    forall i, j | 0 <= i < j < |flags| && flags[j] ensures flags[i] {
      assert JourneyThresholds[i] < JourneyThresholds[j];
    }
  }

  /** Two profiles with the same score light the same tiers, whatever their
      level or coins. */
  lemma JourneyDependsOnlyOnScore(u: UserData, v: UserData)
    requires u.creditScore == v.creditScore
    ensures Journey(u) == Journey(v)
  {
  }

  /** A score of 762 lights Bronze, Silver and Gold but not Platinum. */
  lemma JourneyAt762(u: UserData)
    requires u.creditScore == Some(762.0)
    ensures Journey(u) == [true, true, true, false]
    ensures CountTrue(Journey(u)) == 3
  {
    var flags := Journey(u);
    assert flags == [true, true, true, false];
    var tail3 := flags[3..];
    assert tail3 == [false] && tail3[1..] == [];
    assert CountTrue(tail3) == 0;
    assert flags[2..][1..] == tail3 && flags[1..][1..] == flags[2..] && flags[1..] == flags[1..];
    assert CountTrue(flags[2..]) == 1;
    assert CountTrue(flags[1..]) == 2;
  }

  /** `coins || 0`: since a stored 0 also prints 0, the coin badge shows the
      stored number, or 0 when there is none. */
  function CoinsShown(u: UserData): (c: real)
    ensures c == u.coins.ValueOr(0.0)
  {
    if u.coins.None? || u.coins.value == 0.0 then 0.0 else u.coins.value
  }

  /** `businessName || 'Business'`: a missing or empty name prints "Business". */
  function NameShown(u: UserData): (name: string)
    ensures name != ""
    ensures u.businessName.Some? && u.businessName.value != "" ==> name == u.businessName.value
    ensures u.businessName.None? || u.businessName.value == "" ==> name == "Business"
  {
    if u.businessName.None? || u.businessName.value == "" then "Business" else u.businessName.value
  }

  /** Storing the shown name changes nothing on screen. */
  lemma NameShownIsStable(u: UserData)
    ensures NameShown(u.(businessName := Some(NameShown(u)))) == NameShown(u)
  {
  }

  /** The dashboard's own buttons. */
  datatype Action =
    | AwardButton
    | SettingsButton
    | GetWorkingCapital
    | ConnectMore
    | RepaymentSchedule
    | BusinessAnalytics
    | RewardsAndLevels

  const ActionTargets: set<Screen> := {Gamification, Settings, LoanApplication, ConnectData, Repayment, Analytics}

  /** The screen a button asks the router for; never an onboarding screen. */
  function Target(a: Action): (s: Screen)
    ensures s in ActionTargets
    ensures !Onboarding(s)
  {
    match a
    case AwardButton => Gamification
    case SettingsButton => Settings
    case GetWorkingCapital => LoanApplication
    case ConnectMore => ConnectData
    case RepaymentSchedule => Repayment
    case BusinessAnalytics => Analytics
    case RewardsAndLevels => Gamification
  }

  /** Every screen in the target set is opened by some button. */
  lemma EveryTargetHasAButton(s: Screen)
    requires s in ActionTargets
    ensures exists a :: Target(a) == s
  {
    if s == Gamification { assert Target(AwardButton) == s; }
    else if s == Settings { assert Target(SettingsButton) == s; }
    else if s == LoanApplication { assert Target(GetWorkingCapital) == s; }
    else if s == ConnectData { assert Target(ConnectMore) == s; }
    else if s == Repayment { assert Target(RepaymentSchedule) == s; }
    else { assert Target(BusinessAnalytics) == s; }
  }
}

=== FILE: profile.dfy ===
/** The shared user profile (`UserData`) and its three writers:
    the partial merge `updateUserData`, the demo replacement done by
    `skipToDemo`, and the fixed figures the account-aggregator consent writes.
    JavaScript numbers are modelled as reals; NaN and the infinities are not. */
module Profile {
  import opened Wrappers

  /** Every field is optional; `None` is an absent (undefined) property. */
  datatype UserData = UserData(
    mobile: Option<string>,
    businessName: Option<string>,
    gstin: Option<string>,
    pan: Option<string>,
    creditLimit: Option<real>,
    availableLimit: Option<real>,
    creditScore: Option<real>,
    coins: Option<real>,
    level: Option<string>,
    loanAmount: Option<real>,
    tenor: Option<real>,
    emi: Option<real>,
    interestRate: Option<real>)

  /** The property names of `UserData`. */
  datatype Key =
    | Mobile | BusinessName | Gstin | Pan
    | CreditLimit | AvailableLimit | CreditScore
    | Coins | Level
    | LoanAmount | Tenor | Emi | InterestRate

  const AllKeys: set<Key> := {
    Mobile, BusinessName, Gstin, Pan, CreditLimit, AvailableLimit, CreditScore,
    Coins, Level, LoanAmount, Tenor, Emi, InterestRate
  }
  const CreditKeys: set<Key> := {CreditLimit, AvailableLimit, CreditScore}
  const LoanKeys: set<Key> := {LoanAmount, Tenor, Emi, InterestRate}

  /** A property value, whichever its declared type. */
  datatype Value = Text(text: string) | Num(num: real)

  function TextOf(o: Option<string>): Option<Value> {
    match o
    case None => None
    case Some(s) => Some(Text(s))
  }

  function NumOf(o: Option<real>): Option<Value> {
    match o
    case None => None
    case Some(n) => Some(Num(n))
  }

  /** Reads one property by name, as `userData[k]` does. */
  function Get(u: UserData, k: Key): Option<Value> {
    match k
    case Mobile => TextOf(u.mobile)
    case BusinessName => TextOf(u.businessName)
    case Gstin => TextOf(u.gstin)
    case Pan => TextOf(u.pan)
    case CreditLimit => NumOf(u.creditLimit)
    case AvailableLimit => NumOf(u.availableLimit)
    case CreditScore => NumOf(u.creditScore)
    case Coins => NumOf(u.coins)
    case Level => TextOf(u.level)
    case LoanAmount => NumOf(u.loanAmount)
    case Tenor => NumOf(u.tenor)
    case Emi => NumOf(u.emi)
    case InterestRate => NumOf(u.interestRate)
  }

  /** The names of the properties that hold a value. */
  function Present(u: UserData): set<Key> {
    set k | k in AllKeys && Get(u, k).Some?
  }

  lemma KeyInAllKeys(k: Key)
    ensures k in AllKeys
  {
  }

  /** Two profiles that agree on every property are the same profile. */
  lemma {:induction false} AgreeEverywhere(a: UserData, b: UserData)
    requires forall k :: Get(a, k) == Get(b, k)
    ensures a == b
  {
    assert Get(a, Mobile) == Get(b, Mobile);
    assert Get(a, BusinessName) == Get(b, BusinessName);
    assert Get(a, Gstin) == Get(b, Gstin);
    assert Get(a, Pan) == Get(b, Pan);
    assert Get(a, CreditLimit) == Get(b, CreditLimit);
    assert Get(a, AvailableLimit) == Get(b, AvailableLimit);
    assert Get(a, CreditScore) == Get(b, CreditScore);
    assert Get(a, Coins) == Get(b, Coins);
    assert Get(a, Level) == Get(b, Level);
    assert Get(a, LoanAmount) == Get(b, LoanAmount);
    assert Get(a, Tenor) == Get(b, Tenor);
    assert Get(a, Emi) == Get(b, Emi);
    assert Get(a, InterestRate) == Get(b, InterestRate);
  }

  /** One property of a `Partial<UserData>` object: either the key is not
      in the object at all, or it is, with a value or with `undefined`. */
  datatype Slot<T> = Omitted | Given(value: Option<T>)

  datatype Patch = Patch(
    mobile: Slot<string>,
    businessName: Slot<string>,
    gstin: Slot<string>,
    pan: Slot<string>,
    creditLimit: Slot<real>,
    availableLimit: Slot<real>,
    creditScore: Slot<real>,
    coins: Slot<real>,
    level: Slot<string>,
    loanAmount: Slot<real>,
    tenor: Slot<real>,
    emi: Slot<real>,
    interestRate: Slot<real>)

  /** The object literal `{}`. */
  const EmptyPatch: Patch := Patch(
    Omitted, Omitted, Omitted, Omitted, Omitted, Omitted, Omitted,
    Omitted, Omitted, Omitted, Omitted, Omitted, Omitted)

  function TextSlot(s: Slot<string>): Slot<Value> {
    match s
    case Omitted => Omitted
    case Given(o) => Given(TextOf(o))
  }

  function NumSlot(s: Slot<real>): Slot<Value> {
    match s
    case Omitted => Omitted
    case Given(o) => Given(NumOf(o))
  }

  /** Reads one key of a patch by name. */
  function Entry(p: Patch, k: Key): Slot<Value> {
    match k
    case Mobile => TextSlot(p.mobile)
    case BusinessName => TextSlot(p.businessName)
    case Gstin => TextSlot(p.gstin)
    case Pan => TextSlot(p.pan)
    case CreditLimit => NumSlot(p.creditLimit)
    case AvailableLimit => NumSlot(p.availableLimit)
    case CreditScore => NumSlot(p.creditScore)
    case Coins => NumSlot(p.coins)
    case Level => TextSlot(p.level)
    case LoanAmount => NumSlot(p.loanAmount)
    case Tenor => NumSlot(p.tenor)
    case Emi => NumSlot(p.emi)
    case InterestRate => NumSlot(p.interestRate)
  }

  /** The keys the patch object carries. */
  function Keys(p: Patch): set<Key> {
    set k | k in AllKeys && Entry(p, k).Given?
  }

  /** The spread `{ ...prev, ...data }` on one property. */
  function Pick<T>(s: Slot<T>, prev: Option<T>): Option<T> {
    match s
    case Omitted => prev
    case Given(o) => o
  }

  /** `updateUserData(data)`: a right-biased merge. Keys carried by the patch
      take the patch's value; every other property keeps its value. */
  function Update(u: UserData, p: Patch): (r: UserData)
    ensures forall k :: Entry(p, k).Given? ==> Get(r, k) == Entry(p, k).value
    ensures forall k :: Entry(p, k).Omitted? ==> Get(r, k) == Get(u, k)
  {
    UserData(
      Pick(p.mobile, u.mobile),
      Pick(p.businessName, u.businessName),
      Pick(p.gstin, u.gstin),
      Pick(p.pan, u.pan),
      Pick(p.creditLimit, u.creditLimit),
      Pick(p.availableLimit, u.availableLimit),
      Pick(p.creditScore, u.creditScore),
      Pick(p.coins, u.coins),
      Pick(p.level, u.level),
      Pick(p.loanAmount, u.loanAmount),
      Pick(p.tenor, u.tenor),
      Pick(p.emi, u.emi),
      Pick(p.interestRate, u.interestRate))
  }

  /** `update({})` changes nothing. */
  lemma {:induction false} UpdateEmptyIsIdentity(u: UserData)
    ensures Keys(EmptyPatch) == {}
    ensures Update(u, EmptyPatch) == u
  {
    forall k ensures Get(Update(u, EmptyPatch), k) == Get(u, k) {
      assert Entry(EmptyPatch, k).Omitted?;
    }
    AgreeEverywhere(Update(u, EmptyPatch), u);
  }

  /** Two updates whose key sets are disjoint may be applied in either order. */
  lemma {:induction false} DisjointUpdatesCommute(u: UserData, p: Patch, q: Patch)
    requires Keys(p) !! Keys(q)
    ensures Update(Update(u, p), q) == Update(Update(u, q), p)
  {
    var a := Update(Update(u, p), q);
    var b := Update(Update(u, q), p);
    forall k ensures Get(a, k) == Get(b, k) {
      KeyInAllKeys(k);
      assert !(k in Keys(p) && k in Keys(q));
    }
    AgreeEverywhere(a, b);
  }

  /** Applying the same update twice is the same as applying it once. */
  lemma {:induction false} UpdateIdempotent(u: UserData, p: Patch)
    ensures Update(Update(u, p), p) == Update(u, p)
  {
    var a := Update(Update(u, p), p);
    forall k ensures Get(a, k) == Get(Update(u, p), k) {
    }
    AgreeEverywhere(a, Update(u, p));
  }

  /** The patch that has the effect of `p` followed by `q`. */
  function Then(p: Patch, q: Patch): Patch
  {
    Patch(
      if q.mobile.Given? then q.mobile else p.mobile,
      if q.businessName.Given? then q.businessName else p.businessName,
      if q.gstin.Given? then q.gstin else p.gstin,
      if q.pan.Given? then q.pan else p.pan,
      if q.creditLimit.Given? then q.creditLimit else p.creditLimit,
      if q.availableLimit.Given? then q.availableLimit else p.availableLimit,
      if q.creditScore.Given? then q.creditScore else p.creditScore,
      if q.coins.Given? then q.coins else p.coins,
      if q.level.Given? then q.level else p.level,
      if q.loanAmount.Given? then q.loanAmount else p.loanAmount,
      if q.tenor.Given? then q.tenor else p.tenor,
      if q.emi.Given? then q.emi else p.emi,
      if q.interestRate.Given? then q.interestRate else p.interestRate)
  }

  /** Two successive updates equal one update with the combined patch, so a
      run of merges never loses a key written earlier unless a later patch
      writes the same key. */
  lemma {:induction false} UpdatesCompose(u: UserData, p: Patch, q: Patch)
    ensures Update(Update(u, p), q) == Update(u, Then(p, q))
  {
    var a := Update(Update(u, p), q);
    var b := Update(u, Then(p, q));
    forall k ensures Get(a, k) == Get(b, k) {
    }
    AgreeEverywhere(a, b);
  }

  /** The combined patch carries the keys of both. */
  lemma {:induction false} ThenKeys(p: Patch, q: Patch)
    ensures Keys(Then(p, q)) == Keys(p) + Keys(q)
  {
    forall k | k in AllKeys ensures k in Keys(Then(p, q)) <==> k in Keys(p) || k in Keys(q) {
      ThenEntry(p, q, k);
    }
  }

  /** Key by key, the combined patch takes `q`'s entry when `q` carries the key. */
  lemma ThenEntry(p: Patch, q: Patch, k: Key)
    ensures Entry(Then(p, q), k) == if Entry(q, k).Given? then Entry(q, k) else Entry(p, k)
  {
  }

  /** A patch that writes exactly one numeric property, as `{ coins: 5 }`. */
  function CoinsPatch(n: real): (p: Patch)
    ensures Keys(p) == {Coins}
    ensures Entry(p, Coins) == Given(Some(Num(n)))
  {
    EmptyPatch.(coins := Given(Some(n)))
  }

  /** A patch that writes exactly the level, as `{ level: "Gold" }`. */
  function LevelPatch(s: string): (p: Patch)
    ensures Keys(p) == {Level}
    ensures Entry(p, Level) == Given(Some(Text(s)))
  {
    EmptyPatch.(level := Given(Some(s)))
  }

  /** `update({coins: 5})` then `update({level: "Gold"})` sets both and keeps
      every other property, in either order. */
  lemma CoinsThenLevel(u: UserData)
    ensures Update(Update(u, CoinsPatch(5.0)), LevelPatch("Gold")).coins == Some(5.0)
    ensures Update(Update(u, CoinsPatch(5.0)), LevelPatch("Gold")).level == Some("Gold")
    ensures forall k :: k != Coins && k != Level ==>
      Get(Update(Update(u, CoinsPatch(5.0)), LevelPatch("Gold")), k) == Get(u, k)
    ensures Update(Update(u, CoinsPatch(5.0)), LevelPatch("Gold"))
         == Update(Update(u, LevelPatch("Gold")), CoinsPatch(5.0))
  {
    DisjointUpdatesCommute(u, CoinsPatch(5.0), LevelPatch("Gold"));
  }

  /** The profile a session starts with. */
  const Initial: UserData := UserData(
    None, None, None, None, None, None, None,
    Some(250.0), Some("Bronze"),
    None, None, None, None)

  /** The record `skipToDemo` installs in place of the whole profile. */
  const Demo: UserData := UserData(
    Some("+91 98765 43210"),
    Some("Demo Enterprises"),
    Some("29ABCDE1234F1Z5"),
    Some("ABCDE1234F"),
    Some(1000000.0),
    Some(850000.0),
    Some(762.0),
    Some(250.0),
    Some("Gold"),
    None, None, None, None)

  /** The merge the consent screen performs before moving on. */
  const ConsentPatch: Patch := EmptyPatch.(
    creditLimit := Given(Some(1000000.0)),
    availableLimit := Given(Some(850000.0)),
    creditScore := Given(Some(762.0)))

  /** Only coins (250) and level ("Bronze") are set at session start. */
  lemma InitialHoldsCoinsAndLevel()
    ensures Present(Initial) == {Coins, Level}
    ensures Get(Initial, Coins) == Some(Num(250.0))
    ensures Get(Initial, Level) == Some(Text("Bronze"))
  {
    forall k | k in AllKeys ensures k in Present(Initial) <==> k in {Coins, Level} {
    }
  }

  /** The demo record sets nine properties, leaves every loan property absent,
      and names the Gold level. */
  lemma DemoHoldsNineFields()
    ensures Present(Demo) == AllKeys - LoanKeys
    ensures Demo.level == Some("Gold") && Demo.coins == Some(250.0)
  {
    forall k | k in AllKeys ensures k in Present(Demo) <==> k !in LoanKeys {
    }
  }

  /** The consent merge writes exactly the three credit figures. */
  lemma ConsentWritesCreditFigures(u: UserData)
    ensures Keys(ConsentPatch) == CreditKeys
    ensures Update(u, ConsentPatch).creditLimit == Some(1000000.0)
    ensures Update(u, ConsentPatch).availableLimit == Some(850000.0)
    ensures Update(u, ConsentPatch).creditScore == Some(762.0)
    ensures forall k :: k !in CreditKeys ==> Get(Update(u, ConsentPatch), k) == Get(u, k)
  {
    forall k | k in AllKeys ensures k in Keys(ConsentPatch) <==> k in CreditKeys {
    }
  }
}

=== FILE: rewards_tier.dfy ===
/** The rewards screen: the tier table, the current and next tier, the
    unlocked rule, and the reward catalogue with its redeem labels. */
module RewardsTierScreen {
  import opened Wrappers
  import opened Seqs

  datatype Tier = Tier(name: string, minCoins: real)

  const Tiers: seq<Tier> := [
    Tier("Bronze", 0.0),
    Tier("Silver", 500.0),
    Tier("Gold", 1000.0),
    Tier("Platinum", 2000.0)
  ]

  datatype Reward = Reward(name: string, cost: real, worth: string)

  const Rewards: seq<Reward> := [
    Reward("Amazon Voucher", 100.0, "₹100"),
    Reward("Flipkart Voucher", 100.0, "₹100"),
    Reward("GST Filing Discount", 200.0, "10% Off"),
    Reward("Interest Rate Reduction", 500.0, "0.5%"),
    Reward("Credit Limit Boost", 1000.0, "₹50,000")
  ]

  /** The thresholds rise strictly and the names are distinct. */
  lemma TierTableShape()
    ensures |Tiers| == 4
    ensures forall i, j :: 0 <= i < j < |Tiers| ==> Tiers[i].minCoins < Tiers[j].minCoins
    ensures forall i, j :: 0 <= i < j < |Tiers| ==> Tiers[i].name != Tiers[j].name
  {
  }

  predicate IsTierName(name: string) {
    exists i :: 0 <= i < |Tiers| && Tiers[i].name == name
  }

  /** `findIndex` by name: the first position holding `name`, or -1. */
  function IndexOf(ts: seq<Tier>, name: string): (i: int)
    ensures -1 <= i < |ts|
    ensures i >= 0 ==> ts[i].name == name
    ensures i >= 0 ==> forall j :: 0 <= j < i ==> ts[j].name != name
    ensures i == -1 <==> forall j :: 0 <= j < |ts| ==> ts[j].name != name
    decreases |ts|
  {
    if |ts| == 0 then -1
    else if ts[0].name == name then 0
    else
      var k := IndexOf(ts[1..], name);
      if k == -1 then -1 else k + 1
  }

  /** The current tier comes from the level name, never from the coin count. */
  function CurrentTierIndex(level: string): (i: int)
    ensures -1 <= i < |Tiers|
    ensures i == -1 <==> !IsTierName(level)
    ensures i >= 0 ==> Tiers[i].name == level
  {
    IndexOf(Tiers, level)
  }

  /** The following table entry, or none past the last one. An unknown name
      (index -1) yields the first entry, as the source computes it. */
  function NextTier(i: int): (r: Option<Tier>)
    requires -1 <= i < |Tiers|
    ensures r.None? <==> i == |Tiers| - 1
    ensures r.Some? ==> r.value in Tiers
    ensures i == -1 ==> r == Some(Tier("Bronze", 0.0))
  {
    if i < |Tiers| - 1 then Some(Tiers[i + 1]) else None
  }

  /** The gap to the next tier, unclamped; 0 when there is no next tier. */
  function CoinsToNext(i: int, coins: real): (gap: real)
    requires -1 <= i < |Tiers|
    ensures NextTier(i).Some? ==> coins + gap == NextTier(i).value.minCoins
    ensures i == |Tiers| - 1 ==> gap == 0.0
  {
    match NextTier(i)
    case Some(t) => t.minCoins - coins
    case None => 0.0
  }

  /** The next tier is the tier with the smallest threshold above the current
      one's, and only the top tier has none. */
  lemma NextTierIsNextThreshold(i: int)
    requires 0 <= i < |Tiers|
    ensures NextTier(i).None? <==> forall j :: 0 <= j < |Tiers| ==> Tiers[j].minCoins <= Tiers[i].minCoins
    ensures NextTier(i).Some? ==> NextTier(i).value.minCoins > Tiers[i].minCoins
    ensures NextTier(i).Some? ==> forall j :: 0 <= j < |Tiers| && Tiers[j].minCoins > Tiers[i].minCoins ==>
      NextTier(i).value.minCoins <= Tiers[j].minCoins
  {
    TierTableShape();
    if i < |Tiers| - 1 {
      assert Tiers[i + 1].minCoins > Tiers[i].minCoins;
    }
  }

  predicate IsUnlocked(t: Tier, coins: real) {
    coins >= t.minCoins
  }

  predicate IsCurrent(t: Tier, level: string) {
    t.name == level
  }

  /** A positive gap means the next tier is still locked; a zero or negative
      gap (the display does not clamp it) means it is already unlocked. */
  lemma GapMeansLocked(i: int, coins: real)
    requires -1 <= i < |Tiers|
    ensures NextTier(i).Some? ==> (CoinsToNext(i, coins) > 0.0 <==> !IsUnlocked(NextTier(i).value, coins))
    ensures NextTier(i).None? ==> CoinsToNext(i, coins) == 0.0
  {
  }

  /** One row of the tier list. */
  datatype TierRow = TierRow(name: string, minCoins: real, unlocked: bool, current: bool)

  function TierRows(level: string, coins: real): (rows: seq<TierRow>)
    ensures |rows| == |Tiers|
    ensures forall i :: 0 <= i < |rows| ==> rows[i].name == Tiers[i].name
    ensures forall i :: 0 <= i < |rows| ==> (rows[i].unlocked <==> IsUnlocked(Tiers[i], coins))
    ensures forall i :: 0 <= i < |rows| ==> (rows[i].current <==> IsCurrent(Tiers[i], level))
  {
    seq(|Tiers|, i requires 0 <= i < |Tiers| =>
      TierRow(Tiers[i].name, Tiers[i].minCoins, IsUnlocked(Tiers[i], coins), IsCurrent(Tiers[i], level)))
  }

  function Unlocked(rows: seq<TierRow>): seq<bool> {
    seq(|rows|, i requires 0 <= i < |rows| => rows[i].unlocked)
  }

  /** The unlocked rows are a prefix of the table: if a tier is unlocked, so
      is every cheaper one. */
  lemma {:induction false} UnlockedFormPrefix(level: string, coins: real)
    ensures DownwardClosed(Unlocked(TierRows(level, coins)))
    ensures forall i :: 0 <= i < |Tiers| ==>
      (TierRows(level, coins)[i].unlocked <==> i < CountTrue(Unlocked(TierRows(level, coins))))
  {
    var flags := Unlocked(TierRows(level, coins));
    TierTableShape();
    forall i, j | 0 <= i < j < |flags| && flags[j] ensures flags[i] {
      assert Tiers[i].minCoins < Tiers[j].minCoins;
    }
    DownwardClosedIsPrefix(flags);
    forall i | 0 <= i < |Tiers| ensures TierRows(level, coins)[i].unlocked == flags[i] {
    }
  }

  /** With a known level exactly one row is marked current, the one
      `CurrentTierIndex` finds; with an unknown level none is. */
  lemma ExactlyOneCurrent(level: string, coins: real)
    ensures IsTierName(level) ==> forall i :: 0 <= i < |Tiers| ==>
      (TierRows(level, coins)[i].current <==> i == CurrentTierIndex(level))
    ensures !IsTierName(level) ==> forall i :: 0 <= i < |Tiers| ==> !TierRows(level, coins)[i].current
  {
    TierTableShape();
  }

  datatype Progress = Progress(coinsToNext: real, nextName: string)

  /** The balance card: coins, current tier badge and, below the top tier,
      the gap to the next one. */
  datatype Header = Header(coins: real, tier: string, progress: Option<Progress>)

  /** Rendering the badge reads `tiers[currentTierIndex].color`; for an
      unknown level that is `tiers[-1]`, undefined, and the render throws. */
  datatype RenderError = UnknownTier(level: string)

  function RenderHeader(level: string, coins: real): (r: Result<Header, RenderError>)
    ensures r.Err? <==> !IsTierName(level)
    ensures r.Ok? ==> r.value.coins == coins && r.value.tier == level
    ensures r.Ok? ==> (r.value.progress.None? <==> level == "Platinum")
    ensures r.Ok? && r.value.progress.Some? ==>
      exists i :: 0 <= i < |Tiers| - 1 && Tiers[i].name == level
        && r.value.progress.value == Progress(Tiers[i + 1].minCoins - coins, Tiers[i + 1].name)
  {
    var i := CurrentTierIndex(level);
    if i == -1 then Err(UnknownTier(level))
    else
      var progress := match NextTier(i)
        case Some(t) => Some(Progress(CoinsToNext(i, coins), t.name))
        case None => None;
      Ok(Header(coins, level, progress))
  }

  predicate CanRedeem(r: Reward, coins: real) {
    coins >= r.cost
  }

  /** The text on a reward's button. */
  datatype RedeemLabel = RedeemNow | Need(more: real)

  /** A reward card: enabled with "Redeem Now", or disabled with the shortfall.
      The button has no click handler, so nothing here changes the coins. */
  datatype RewardCard = RewardCard(name: string, cost: real, enabled: bool, caption: RedeemLabel)

  function Card(r: Reward, coins: real): (c: RewardCard)
    ensures c.enabled <==> coins >= r.cost
    ensures c.caption.RedeemNow? <==> c.enabled
    ensures c.caption.Need? ==> c.caption.more > 0.0 && coins + c.caption.more == r.cost
  {
    var ok := CanRedeem(r, coins);
    RewardCard(r.name, r.cost, ok, if ok then RedeemNow else Need(r.cost - coins))
  }

  function Cards(coins: real): (cs: seq<RewardCard>)
    ensures |cs| == |Rewards|
    ensures forall i :: 0 <= i < |cs| ==> cs[i] == Card(Rewards[i], coins)
  {
    seq(|Rewards|, i requires 0 <= i < |Rewards| => Card(Rewards[i], coins))
  }

  /** The default session (Bronze, 250 coins): only Bronze is unlocked, Silver
      is 250 coins away, three rewards are redeemable and the other two show
      shortfalls of 250 and 750. */
  lemma DefaultSessionFigures()
    ensures CurrentTierIndex("Bronze") == 0
    ensures RenderHeader("Bronze", 250.0) == Ok(Header(250.0, "Bronze", Some(Progress(250.0, "Silver"))))
    ensures forall i :: 0 <= i < |Tiers| ==> (TierRows("Bronze", 250.0)[i].unlocked <==> i == 0)
    ensures forall i :: 0 <= i < |Rewards| ==> (Cards(250.0)[i].enabled <==> i < 3)
    ensures Cards(250.0)[3].caption == Need(250.0)
    ensures Cards(250.0)[4].caption == Need(750.0)
  {
    assert IndexOf(Tiers, "Bronze") == 0;
  }

  /** The demo session (Gold, 250 coins) is 1750 coins short of Platinum,
      while the table shows Gold as locked: the badge follows the level name. */
  lemma DemoSessionFigures()
    ensures CurrentTierIndex("Gold") == 2
    ensures RenderHeader("Gold", 250.0) == Ok(Header(250.0, "Gold", Some(Progress(1750.0, "Platinum"))))
    ensures TierRows("Gold", 250.0)[2].current && !TierRows("Gold", 250.0)[2].unlocked
  {
    assert Tiers[0].name != "Gold" && Tiers[1].name != "Gold";
    assert IndexOf(Tiers[2..], "Gold") == 0;
    assert IndexOf(Tiers[1..], "Gold") == 1;
  }

  /** The gap is not clamped: a Bronze holder with 600 coins reads -100. */
  lemma GapCanBeNegative()
    ensures CoinsToNext(CurrentTierIndex("Bronze"), 600.0) == -100.0
  {
    assert IndexOf(Tiers, "Bronze") == 0;
  }
}

=== FILE: screens.dfy ===
/** The closed set of screen identifiers the router switches between,
    the onboarding group, and the rule for showing the bottom tab bar. */
module Screens {

  datatype Screen =
    | Welcome
    | Otp
    | BusinessDetails
    | AaConsent
    | Dashboard
    | ConnectData
    | LoanApplication
    | CreditSummary
    | LoanOffer
    | Success
    | Repayment
    | Analytics
    | Gamification
    | Settings
    | CreditCoach
    | GrowthInsights
    | RewardsTier

  /** The seventeen identifiers in declaration order. */
  const AllScreens: seq<Screen> := [
    Welcome, Otp, BusinessDetails, AaConsent, Dashboard, ConnectData,
    LoanApplication, CreditSummary, LoanOffer, Success, Repayment, Analytics,
    Gamification, Settings, CreditCoach, GrowthInsights, RewardsTier
  ]

  /** The four screens a new session walks through before the dashboard. */
  const OnboardingScreens: set<Screen> := {Welcome, Otp, BusinessDetails, AaConsent}

  predicate Onboarding(s: Screen) {
    s in OnboardingScreens
  }

  /** The screens on which the bottom tab bar is rendered. */
  const TabScreens: set<Screen> := {Dashboard, CreditCoach, GrowthInsights, RewardsTier, Settings}

  predicate BarVisible(s: Screen) {
    s in TabScreens
  }

  /** Every identifier is listed exactly once. */
  lemma AllScreensEnumerates(s: Screen)
    ensures s in AllScreens
    ensures |AllScreens| == 17
  {
  }

  /** The bar rule, checked for each of the seventeen identifiers in turn:
      only positions 4 (dashboard), 13 (settings), 14, 15 and 16 show it. */
  lemma BarVisibleOnExactlyFive()
    ensures forall i :: 0 <= i < |AllScreens| ==>
      (BarVisible(AllScreens[i]) <==> i == 4 || i >= 13)
  {
  }

  /** No screen is both in onboarding and shows the tab bar. */
  lemma OnboardingHasNoBar(s: Screen)
    ensures Onboarding(s) ==> !BarVisible(s)
  {
  }
}

=== FILE: seqs.dfy ===
/** Small facts about sequences used by several screens. */
module Seqs {

  /** No element occurs twice. */
  predicate NoDup<T(==)>(s: seq<T>) {
    forall i, j :: 0 <= i < j < |s| ==> s[i] != s[j]
  }

  /** A row of flags in which a set flag implies every earlier flag is set,
      i.e. the set flags form a prefix. */
  predicate DownwardClosed(flags: seq<bool>) {
    forall i, j :: 0 <= i < j < |flags| && flags[j] ==> flags[i]
  }

  /** Number of set flags. */
  function CountTrue(flags: seq<bool>): (n: nat)
    ensures n <= |flags|
  {
    if |flags| == 0 then 0 else (if flags[0] then 1 else 0) + CountTrue(flags[1..])
  }

  /** In a downward-closed row the set flags are exactly the first CountTrue ones. */
  lemma {:induction false} DownwardClosedIsPrefix(flags: seq<bool>)
    requires DownwardClosed(flags)
    ensures forall i :: 0 <= i < |flags| ==> (flags[i] <==> i < CountTrue(flags))
  {
    if |flags| > 0 {
      var rest := flags[1..];
      assert DownwardClosed(rest) by {
        forall i, j | 0 <= i < j < |rest| && rest[j] ensures rest[i] {
          assert flags[j + 1];
        }
      }
      DownwardClosedIsPrefix(rest);
      if !flags[0] {
        assert CountTrue(rest) == 0 by {
          if |rest| > 0 {
            assert !flags[1];
            assert !rest[0];
          }
        }
        forall i | 0 <= i < |flags| ensures !flags[i] {
          if i > 0 {
            assert flags[i] == rest[i - 1];
          }
        }
      } else {
        forall i | 0 <= i < |flags| ensures flags[i] <==> i < CountTrue(flags) {
          if i > 0 {
            assert flags[i] == rest[i - 1];
          }
        }
      }
    }
  }

  /** The elements of a duplicate-free sequence, as a set, have as many members as the sequence. */
  lemma {:induction false} NoDupElementCount<T>(s: seq<T>)
    requires NoDup(s)
    ensures |set x | x in s| == |s|
  {
    if |s| > 0 {
      var rest := s[1..];
      assert NoDup(rest) by {
        forall i, j | 0 <= i < j < |rest| ensures rest[i] != rest[j] {
          assert rest[i] == s[i + 1] && rest[j] == s[j + 1];
        }
      }
      NoDupElementCount(rest);
      assert s[0] !in rest by {
        forall k | 0 <= k < |rest| ensures rest[k] != s[0] {
          assert rest[k] == s[k + 1];
        }
      }
      assert (set x | x in s) == (set x | x in rest) + {s[0]} by {
        assert s == [s[0]] + rest;
      }
    }
  }

  /** A duplicate-free sequence drawn from a finite universe is no longer than the universe. */
  lemma NoDupBoundedBy<T>(s: seq<T>, universe: set<T>)
    requires NoDup(s)
    requires forall x :: x in s ==> x in universe
    ensures |s| <= |universe|
  {
    NoDupElementCount(s);
    var elems := set x | x in s;
    assert elems <= universe;
    SubsetCardinality(elems, universe);
  }

  lemma SubsetCardinality<T>(a: set<T>, b: set<T>)
    requires a <= b
    ensures |a| <= |b|
  {
    assert b == a + (b - a);
  }
}

=== FILE: wrappers.dfy ===
/** Optional values and render outcomes. `Option` is a TypeScript property
    that may be `undefined`; `Result` is a render that returns or throws. */
module Wrappers {

  datatype Option<+T> = None | Some(value: T) {

    /** `v ?? fallback` for a property `v`. */
    function ValueOr(fallback: T): T {
      if Some? then value else fallback
    }
  }

  datatype Result<+R, +E> = Ok(value: R) | Err(error: E)
}
